=== FILE: README.md ===
# rez-egg-install, modelled in Dafny

`rez-egg-install` installs a Python egg as a Rez package. After
`easy_install` has fetched the egg, the installer does two things:

- it converts the egg's metadata into the record of a Rez package;
- it writes that record, as `package.yaml`, into the package repository.

This project models the decision-making core of `bin/rez-egg-install_.py` with pure functions over immutable values. It proves the properties the code promises.

- **Version encoder** (`Version`, `Text`): `_convert_version`.
  - Letters and `_` become `.N.` (a-z → 0-25, A-Z → 26-51, `_` → 52).
  - One non-overlapping `..`→`.` pass follows, as Python's `str.replace` does it.
  - Then `strip('.')`.
- **Name mapper** (`Names`): `_convert_pkg_name`.
  - At most one table lookup; a falsy mapped value is ignored.
  - Then every `-` becomes `_`.
- **Requirement translator** (`Requirements`): `_convert_requirement`.
  - The six-operator table.
  - An unknown operator is an error value (`UnknownOperator`).
- **PKG-INFO filter** (`Metadata`): the line loop of `_convert_metadata`.
  - It keeps lines matching `^[A-Z][a-z_-]+:`.
  - Each kept line is split at its first colon, with key and value stripped.
  - Assignment is last-wins.
- **Record builder** (`Build`), lines 224-274.
  - `requires`, `description`, `author`, the `help` entry and the platform policy.
  - The table of eggs keyed by converted name, where a later egg replaces an earlier one.
- **Install step** (`Layout`, `Install`), lines 283-379.
  - Paths: `pkg_path`, `meta_path` and `variant_path`.
  - The skip-if-exists rule.
  - `_mkdir`'s record of created directories and the reverse-order lock-down.
  - The `.pyc`-excluding tree copy.
  - The additive manifest merge with append-once `commands`.
  - Dry run, and the write-once `release_time.txt`.

Modelling choices:

- **Filesystem.** It is a set of existing paths. A path is a list of components. Manifests and timestamps are stored at some of those paths.
- **Manifest values.** A `package.yaml` document is a recursive `Value`: string, integer, list or string-keyed map.
- **Errors.** Every way the installer can stop is an `Err` value:
  - an unknown operator (line 88);
  - an unknown platform (line 272);
  - a `variants` or `commands` entry that cannot be appended to. Python would raise there;
  - a variant token that is not a string, met by `os.path.join` at line 310 (`NotAPathComponent`). Python would raise there too.
- **Iteration order.** The order of `eggs.iteritems()` is unspecified. It is the `order` parameter of the install loop.
- **Clock.** `time.time()` is the `now` field of `Install.Config`.

Behaviour of the code worth knowing, each point modelled as written:

- A duplicate PKG-INFO key keeps its last value: line 105 overwrites it.
- Name remapping is one step: line 54 recurses with an empty table.
- Names are not case-folded (lines 52-55).
- `"1.0a2"` encodes to `"1.0.0.2"` (lines 31-48).
- `!=` gives `!N-E` (lines 84-85).
- With no variants, `variant_path` is `pkg_path` itself (line 310).
- `destdirs` is never emptied, so each egg re-locks every directory recorded by earlier eggs (lines 283-289 and 334-335).
- The `help` entry lands inside the `EGG-INFO` map (lines 239-240 and 255).

## Model

| member | source | states |
|---|---|---|
| Text.StripRemovesEdges | bin/rez-egg-install_.py:47 | What `strip` leaves is no longer than the input, its end characters are outside the stripped set, and every kept character occurs in the input. The result is empty for an all-stripped input, and it is the input itself when neither end is strippable. That it is a slice is `Text.StripIsSlice`. |
| Text.StripIsSlice | bin/rez-egg-install_.py:47 | The result of `strip` is `s[a..len(s)-b]` for some `a` and `b`, where the first `a` and the last `b` characters all belong to the stripped set. |
| Text.StripDotsKeepsNonDots | bin/rez-egg-install_.py:47 | `strip('.')` only removes dots: the non-dot characters survive in order. |
| Text.ReplaceDoubleDotsOnlyDeletesDots | bin/rez-egg-install_.py:46 | The `..`→`.` pass never lengthens the string and introduces no character. It keeps every non-dot character in order and leaves a string without `..` unchanged. |
| Text.ReplaceShrinksStrictly | bin/rez-egg-install_.py:46 | A string containing `..` comes out strictly shorter from the pass. |
| Text.ReplaceIsSinglePass | bin/rez-egg-install_.py:46 | The pass is one non-overlapping sweep, not a collapse: `"...."` becomes `".."` and `"1....2"` becomes `"1..2"`. |
| Version.CodeIsAlphabetPosition | bin/rez-egg-install_.py:35-40 | A character has a code exactly when it is a letter or `_`, and its code is its position in a-z, A-Z, `_` (0-52). |
| Version.DecimalString | bin/rez-egg-install_.py:44 | `%d` of a natural number is a non-empty digit string whose decimal value is that number, with no leading zero unless it is `"0"`. |
| Version.ExpandIsCodeless | bin/rez-egg-install_.py:33-44 | After substitution no letter or `_` remains. |
| Version.ConvertVersionShape | bin/rez-egg-install_.py:31-48 | The encoded version never starts or ends with `.` and contains no letter or `_`. It keeps every non-dot character of the substituted text in order. |
| Version.ConvertKeepsNumericVersion | bin/rez-egg-install_.py:31-48 | A version without letters, `_`, `..` or edge dots is returned unchanged. |
| Version.ConvertTwiceWhenClean | bin/rez-egg-install_.py:46-47 | Encoding an encoded version again changes nothing exactly when the single pass left no `..` behind. |
| Version.ConvertLettersOnly | bin/rez-egg-install_.py:31-48 | A version made only of letters and `_` encodes to the decimal codes of its characters joined by single dots. |
| Version.ConvertLowerExample | bin/rez-egg-install_.py:35-36 | `"abc"` encodes to `"0.1.2"`. |
| Version.ConvertUpperExample | bin/rez-egg-install_.py:37-40 | `"A_b"` encodes to `"26.52.1"`. |
| Version.ConvertMixedExample | bin/rez-egg-install_.py:41-47 | `"1.0a2"` encodes to `"1.0.0.2"`. |
| Version.ConvertNumericExample | bin/rez-egg-install_.py:41-42 | `"1.2.3"` and `""` are returned unchanged. |
| Version.ConvertIsNotIdempotent | bin/rez-egg-install_.py:46 | Encoding is not idempotent: `"1....2"` encodes to `"1..2"`, which encodes to `"1.2"`. |
| Names.Underscored | bin/rez-egg-install_.py:55 | `replace('-', '_')` keeps the length, turns every `-` into `_` and keeps every other character. |
| Names.ConvertPkgNameSpec | bin/rez-egg-install_.py:51-55 | The result is the chosen name (the non-empty mapped value, else the name) with `-` replaced by `_`, character for character. No `-` remains and case is kept. |
| Names.ConvertPkgNameOneStep | bin/rez-egg-install_.py:52-54 | Only one mapping is applied, even when the mapped name is itself a key of the table. |
| Names.ConvertPkgNameUnmapped | bin/rez-egg-install_.py:52-53 | An unmapped name, or one mapped to an empty value, is kept apart from the `-` rewrite. |
| Names.ConvertPkgNameExample | bin/rez-egg-install_.py:51-55 | `My-Pkg` becomes `My_Pkg`. With `a → b-c` and `b-c → d`, `a` becomes `b_c`. |
| Requirements.TranslateSpecResult | bin/rez-egg-install_.py:67-88 | One spec succeeds exactly for the six operators. It yields two strings for `>` and one otherwise, and fails with the operator named. |
| Requirements.TranslateSpecsShape | bin/rez-egg-install_.py:63-90 | The loop succeeds exactly when every operator is supported, and then yields #specs + #`>` strings. Otherwise it fails on the first unsupported operator. |
| Requirements.ConvertRequirement | bin/rez-egg-install_.py:58-90 | No specs give exactly `[N]`. Otherwise the result is the spec-by-spec translation of the mapped name: it fails exactly when some operator is unknown, naming the first one, and has #specs + #`>` strings otherwise. |
| Requirements.TranslateSpecsAppend | bin/rez-egg-install_.py:64-89 | Specs are translated independently and in order: the translation of `a + b` is that of `a` followed by that of `b`. |
| Requirements.TranslateOneSpec | bin/rez-egg-install_.py:67-88 | The operator table: `<`→`N-0+<E`, `<=`→`N-0+<E\|E`, `==`→`N-E`, `>=`→`N-E+`, `>`→`N-E+` then `!N-E`, `!=`→`!N-E`, and any other operator is an error. |
| Metadata.MatchesKeyIffPattern | bin/rez-egg-install_.py:25 | The scanner accepts a line exactly when some colon position satisfies `^[A-Z][a-z_-]+:`, and that position is unique. |
| Metadata.FirstColon | bin/rez-egg-install_.py:102 | The split point of `split(':', 1)` is the first colon, or the end of a line without one. |
| Metadata.KeyOfMatchingLine | bin/rez-egg-install_.py:101-104 | On a kept line the key is exactly the text before the matched colon, and the value is the stripped rest of the line. |
| Metadata.AssignKeys | bin/rez-egg-install_.py:100-105 | The assigned keys are exactly the keys of the kept lines. |
| Metadata.AssignLastWins | bin/rez-egg-install_.py:105 | Each key holds the value of its last kept line. |
| Metadata.ExtractLastWins | bin/rez-egg-install_.py:100-105 | The keys are exactly those of matching lines, and each carries the stripped value of its last matching line. |
| Metadata.ConvertMetadataSpec | bin/rez-egg-install_.py:93-106 | No PKG-INFO gives an empty map. Otherwise the result is the filter applied to the lines of all sections, in order, last-wins. |
| Metadata.KeptLine | bin/rez-egg-install_.py:101-105 | A line `Key:rest` with a pattern-shaped key is kept with that key and value `strip(rest)`, colons in `rest` included. |
| Metadata.HomePageIsKept | bin/rez-egg-install_.py:101-105 | `Home-page:` lines are kept under `Home-page`. |
| Metadata.OtherLinesAreDropped | bin/rez-egg-install_.py:25 | `Metadata-Version:` and a line without a colon are dropped. The filter alone also drops an indented line, though stripped input never holds one. |
| Build.ConvertAllOk | bin/rez-egg-install_.py:257-260 | The requirements of an egg translate exactly when every operator of every requirement is supported. |
| Build.PlatformVariants | bin/rez-egg-install_.py:262-272 | The four platform cases: no platform gives no variants; a known platform gives its list if non-empty; an empty list gives no variants; an unknown platform is an error unless ignored. |
| Build.BuildRecord | bin/rez-egg-install_.py:228-272 | A record builds exactly when its requirements and platform do, and a requirement error is reported first. `name` and `version` are converted, `requires` is `python-<E(pyver)>+` followed by the translated requirements, and `variants` comes from the platform policy. |
| Build.RecordFieldsPolicy | bin/rez-egg-install_.py:239-255 | `description` is the non-empty Summary, else the non-empty Description, else absent. `author` is present exactly when non-empty. `EGG-INFO` is the PKG-INFO map plus `help = "$BROWSER <url>"` exactly when Home-page is non-empty. |
| Build.NoHelpInPkgInfo | bin/rez-egg-install_.py:253-255 | PKG-INFO itself can never supply a `help` key, so the only `help` entry is the one built from Home-page. |
| Build.RecordFields | bin/rez-egg-install_.py:232-267 | The manifest keys of a record: `config_version` 0, `name`, `version`, `requires` and `EGG-INFO` always; `description`, `author` and `variants` exactly when set; never a top-level `help` or `commands`. |
| Build.EntryOf | bin/rez-egg-install_.py:274 | A distribution contributes an entry exactly when its record builds, keyed by its converted name. |
| Build.TableOk | bin/rez-egg-install_.py:224-274 | The build loop succeeds exactly when every element does. |
| Build.TableLastWins | bin/rez-egg-install_.py:274 | The table's keys are exactly the elements' keys, and each holds the value of the last element with that key. |
| Build.BuildEggsSpec | bin/rez-egg-install_.py:224-274 | Building succeeds exactly when every record builds. The table then has one egg per converted name, built from the last distribution with that name. |
| Build.BuildEggsKeys | bin/rez-egg-install_.py:274 | The keys and values of a successful build: same-name eggs collide and the later one wins. |
| Layout.NonEmptySpec | bin/rez-egg-install_.py:310 | `os.path.join` keeps exactly the non-empty components. A join of only empty components is the base path. |
| Layout.NonEmptyAppend | bin/rez-egg-install_.py:310 | Components are judged one by one and keep their order: the kept parts of `a + b` are those of `a` followed by those of `b`. |
| Layout.NonEmptyOne | bin/rez-egg-install_.py:310 | A single component is kept exactly when it is non-empty. |
| Layout.VariantPathShape | bin/rez-egg-install_.py:308-310 | The variant path extends the package path and equals it exactly when no variant token is non-empty. |
| Layout.Mkdir | bin/rez-egg-install_.py:283-289 | An existing path or a dry run changes nothing. Otherwise the path and all its ancestors exist afterwards, nothing else is created, and the path is appended to `destdirs` exactly when `make_ro` is set. |
| Layout.GrowsTransitive | bin/rez-egg-install_.py:283-296 | Creating and copying compose: paths only grow, manifests and stamps stay, and the logs are only extended. |
| Layout.CopyableSpec | bin/rez-egg-install_.py:331 | A file is copied exactly when it is listed and its name does not end in `.pyc`. |
| Layout.CopyFile | bin/rez-egg-install_.py:291-296 | A real copy of a non-`.pyc` file adds exactly its target `<dest>/<name>` to the filesystem and to the copy log. A `.pyc` file or a dry run changes nothing. |
| Layout.CopyFiles | bin/rez-egg-install_.py:330-332 | Copying a directory's files only adds paths and leaves `destdirs` alone; a dry run changes nothing. |
| Layout.CopyFilesLog | bin/rez-egg-install_.py:330-332 | A real copy logs one target per copyable name, in order. |
| Layout.MkdirEach | bin/rez-egg-install_.py:327-328 | Every listed sub-directory exists afterwards in a real run, and nothing changes in a dry run. |
| Layout.CopyEntry | bin/rez-egg-install_.py:322-332 | One walk entry only grows the state, and a dry run changes nothing. |
| Layout.CopyTree | bin/rez-egg-install_.py:322-332 | The whole tree copy only grows the state, and a dry run changes nothing. |
| Layout.CopyTreeCreates | bin/rez-egg-install_.py:322-332 | After a real tree copy every target of the tree exists. |
| Layout.CopyTreeLog | bin/rez-egg-install_.py:322-332 | A real tree copy logs exactly the tree's targets, in walk order. |
| Layout.TreeTargetsSpec | bin/rez-egg-install_.py:322-332 | A path is copied exactly when it is `<dest>/<subpath>/<name>` for a listed non-`.pyc` file of some walk entry. |
| Layout.Reversed | bin/rez-egg-install_.py:334 | `reversed` yields the same elements in opposite order. |
| Layout.LockDown | bin/rez-egg-install_.py:334-335 | Every directory recorded so far, by any egg of the run, is locked again, most recent first. The filesystem and the other logs are untouched. |
| Install.AddAbsent | bin/rez-egg-install_.py:349-351 | Record keys are added only where the manifest lacks them. Existing values are never overwritten. |
| Install.MergeSpec | bin/rez-egg-install_.py:349-362 | The merge fails exactly on a non-list `variants` it must append to, or a `commands` value that lacks the command and is not a list. Otherwise every other key survives with its value, absent record keys are added, and `commands` holds the command. |
| Install.MergeAppendsOneVariant | bin/rez-egg-install_.py:353-356 | Non-empty variants append exactly one element, the token list, and keep the earlier elements. |
| Install.MergeCommandOnce | bin/rez-egg-install_.py:358-362 | The command appears at least once and is never duplicated. Earlier entries keep their order. |
| Install.MergeIdempotentWithoutVariants | bin/rez-egg-install_.py:349-362 | Without variants, merging the same record again changes nothing. |
| Install.WriteOutputs | bin/rez-egg-install_.py:372-379 | The manifest is written. The timestamp is written only when its file does not exist yet. |
| Install.WriteOutputsKeeps | bin/rez-egg-install_.py:372-379 | Writing keeps other manifests and every existing timestamp, and adds at most the requested timestamp. |
| Install.Prepare | bin/rez-egg-install_.py:318-335 | Directory creation, copy and lock-down change no manifest or stamp. In a real run they create `.metadata`, the variant path and every copy target under `<variant>/<egg dir>`; a dry run changes no file and no log. The directories recorded so far are appended to the lock log once more, most recent first. |
| Install.PrepareRecords | bin/rez-egg-install_.py:318-319 | `.metadata` is never recorded for lock-down. A variant directory the step creates (one that is not `.metadata` or one of its ancestors) is recorded exactly when there are variants, and nothing recorded earlier is dropped. |
| Install.InstallEggSkips | bin/rez-egg-install_.py:308-316 | An existing variant path skips the egg with nothing created, copied or written. Otherwise a step that succeeds installs the egg at that path. |
| Install.InstallEggCreates | bin/rez-egg-install_.py:308-319 | After a real step, skipped or installed, the variant path exists. |
| Install.InstallEggDryRun | bin/rez-egg-install_.py:367-370 | A dry run changes neither the filesystem nor the logs of created and copied paths. |
| Install.InstallEggWrites | bin/rez-egg-install_.py:337-379 | A real install merges into the manifest as it was before the step and stores the result. Other manifests are untouched, existing timestamps are never rewritten, and a new timestamp is written only at `release_time.txt`, with `now`. |
| Install.ReinstallSkips | bin/rez-egg-install_.py:312-319 | After a real install of an egg, installing it again is skipped. |
| Install.EggStepKeeps | bin/rez-egg-install_.py:299-379 | One step keeps consistency, existing paths and existing timestamps, and changes nothing on a dry run. |
| Install.LoopSpec | bin/rez-egg-install_.py:299-379 | The loop yields one outcome per egg at the variant path of the variants that step reads, and keeps what exists. |
| Install.InstallAllSpec | bin/rez-egg-install_.py:299-379 | Each egg lands at the variant path built from the variants of the previously bound record. A dry run leaves the filesystem untouched, and existing paths and timestamps survive the run. |
| Install.VariantsComeFromPreviousEgg | bin/rez-egg-install_.py:303-304 | With two eggs, the second is installed under the first egg's variants, so it misses its own variant path whenever the two differ. |
| Install.JoinComponents | bin/rez-egg-install_.py:310 | `os.path.join` over a Python list of tokens succeeds exactly when every element is a string, and then joins exactly those strings. |
| Install.SharedListBreaksNextEgg | bin/rez-egg-install_.py:349-356 | As written, the record's `variants` list gains a list element exactly when the step read non-empty variants, the record has variants and the existing manifest has none; the next egg's join at line 310 then fails. The element is the one the manifest received. |
| Install.SharedListExample | bin/rez-egg-install_.py:349-356 | A fresh install reading `["linux"]` for a record with variants `["linux"]` leaves a list with a list element (here `["linux", ["linux"]]`; in Python the list itself), which cannot be joined. |
| Install.CopiedListKeepsNextEgg | bin/rez-egg-install_.py:349-356 | With the manifest given a copy, the record's list is unchanged, so the next egg joins exactly the record's variants, and the manifest still gains the appended element. |
| Install.FreshManifestMixesVariants | bin/rez-egg-install_.py:349-356 | As written, a fresh manifest for a record with variants gets the record's flat tokens followed by the appended combination, which is not a list of combinations. |
| Install.MergeIntendedKeepsCombinations | bin/rez-egg-install_.py:349-362 | With the record's token list left out of the copy, `variants` stays a list of combinations. A fresh manifest gets exactly `[read]` and an existing list gains `read` at its end; without variants the key is left as it was. |
| Install.InstallAllOwnSpec | bin/rez-egg-install_.py:303-310 | Corrected loop: every egg lands at the variant path of its own record, whatever the iteration order. |

## Left out

- Finding and running `easy_install`, the temporary directory and `_clean` (lines 185-211): these are external processes and shell commands.
- `pkg_resources` (lines 97, 219-221, 257): this is a foreign library. Its results are inputs:
  - project name, version and Python version;
  - PKG-INFO as a list of sections of lines, `None` when absent;
  - requirements as name plus `(op, version)` specs;
  - the egg directory's base name and its `os.walk` listing.
- Option parsing, environment variables and loading the mapping file (lines 113-177): these are configuration plumbing. The flags and the two tables are fields of `Build.Options` and `Install.Config`.
- Permission bits (`_g_r_stat`, `_g_x_stat`, `os.chmod`): only which directories are locked, and in which order, is modelled. File modes are not.
- `yaml.dump`, `yaml.load` and the prettify regex (lines 345, 364-365): these are a foreign serializer.
  - A stored manifest is its parsed value.
  - An empty or null document is an absent manifest.
  - A YAML document that is not a mapping, and null, float or boolean values, are not represented.
- `time.time()` (line 379) is the `now` parameter.
- Python list aliasing at lines 267, 351 and 356 is modelled only for one step, by `Install.SharedListBreaksNextEgg`. The records of eggs with the same platform share one list object, and appending the list to itself makes it self-referential; values here are immutable and cannot express either.
- Install.InstallAll: it gives every record its own list, so it does not fail as the code does when a fresh step (manifest without `variants`) reads non-empty variants for a record that has variants. That step appends a list to the record's own list, and the next egg's `os.path.join` at line 310 raises on it. Two eggs of one platform installed fresh are enough. `Install.SharedListBreaksNextEgg` states this for a single step.
- PKG-INFO input lines (lines 96-99): `split_sections` hands over lines already stripped, without blank or `#` lines. Those lines are the input here; the splitting itself belongs to the foreign library.
- `print` logging throughout, including the dry-run listing of the would-be manifest (lines 367-370). The dry run still computes that manifest.
- Paths are lists of components.
  - An absolute component restarting `os.path.join`, or a `/` inside a component, is not modelled.
  - The walk's sub-path is given as components, not as the stripped string of line 323.
- Install.InstallEgg: on a merge error the step returns the error, not the directories and files already created, which Python leaves behind when it raises.
- Install.WriteOutputs: the case where the egg tree itself contains a file at `.metadata/release_time.txt` is not distinguished from a timestamp the installer wrote.
- Install.InstallAll: the record bound before the loop (`prev`) is a parameter. In the program it is the record of the last distribution built.
- Install.InstallEgg: it uses the merge as written (`Install.Merge`), so its manifests keep the mixed `variants` shape of the second Findings row. `Install.MergeIntended` is the corrected merge, stated on its own.
- Build.PlatformVariants: a platform entry in the mapping file that is a string, or a list holding non-string tokens, is not modelled; entries are lists of strings or absent. In Python a string entry would be joined character by character at line 310, and a non-string token would raise there.
- Names.ConvertPkgName: a mapped value that is not a string (the table comes from YAML) is not modelled; mapped values are strings, and the empty string stands for every falsy value.

## Findings

| source | as written | input that shows it | evidently intended | confidence | as-written member | corrected member |
|---|---|---|---|---|---|---|
| bin/rez-egg-install_.py:303-304 | `variants` is read from `d` before `d` is rebound to the current egg's record, so each egg uses the variants of the record bound before it (the previous egg's, or the last one built) | two eggs A and B where A's record has variants `["linux"]` and B's has none: B is installed under `.../B/<ver>/linux` | each egg is installed under the variants of its own record | not executed | Install.VariantsComeFromPreviousEgg | Install.InstallAllOwnSpec |
| bin/rez-egg-install_.py:351-356 | a manifest without `variants` receives the record's own list object, and the step then appends the variants it read to that object, so the record's list gains a list element and the next egg's `os.path.join` at line 310 raises | two eggs of the same platform, mapped to `["linux"]`, installed into an empty repository: the first step appends the shared list `["linux"]` to itself, and the second step's join meets a list element and fails | every record keeps its list of strings, so later eggs join it (what the manifest's `variants` then holds is the next row) | not executed | Install.SharedListBreaksNextEgg | Install.CopiedListKeepsNextEgg |
| bin/rez-egg-install_.py:351 | `variants` is among the record fields copied into a manifest that lacks it, so a fresh manifest starts from the record's flat token list, and line 356 appends the combination after those tokens | one egg whose platform maps to `["linux"]`, installed into an empty repository: `variants` is written as the token `"linux"` followed by a list, `["linux", ["linux"]]` once the list is copied as the previous row intends (as written, the appended list is the list itself) | `variants` is a list of variant combinations, here `[["linux"]]`: the record's tokens are not copied, and each install appends one combination | not executed | Install.FreshManifestMixesVariants | Install.MergeIntendedKeepsCombinations |

=== FILE: build.dfy ===
/** The record builder: one egg distribution becomes the record of its Rez
    package (lines 224-274), and all distributions become the table of eggs
    to install, keyed by converted package name. */
module Build {
  import opened Results
  import opened Values
  import opened Version
  import opened Names
  import opened Requirements
  import opened Metadata
  import opened Layout

  /** What the installer learns about one egg distribution: its project name,
      version and Python version, its PKG-INFO split into sections (`None`
      when the egg has none), its requirements, the base name of its egg
      directory and the walk of that directory. */
  datatype Distribution = Distribution(
    projectName: string,
    version: string,
    pyVersion: string,
    pkgInfo: Option<seq<seq<string>>>,
    requirements: seq<Requirement>,
    eggDir: string,
    walk: seq<WalkEntry>)

  /** The options and tables the installer runs with. A platform may be
      mapped to `None` (a null entry of the mapping file), which counts as
      unmapped. */
  datatype Options = Options(
    packageMap: map<string, string>,
    platformMap: map<string, Option<seq<string>>>,
    ignoreUnknownPlatforms: bool)

  /** The record `d` built for one egg; absent optional keys are `None`. */
  datatype Record = Record(
    name: string,
    version: string,
    requirements: seq<string>,
    eggInfo: map<string, string>,
    description: Option<string>,
    author: Option<string>,
    variants: Option<seq<string>>)

  /** Python's `m.get(k)` where a missing key counts as the empty (falsy) string. */
  function Get(m: map<string, string>, k: string): string {
    if k in m then m[k] else ""
  }

  /** The requirements of an egg, translated in order and concatenated. */
  function ConvertAll(reqs: seq<Requirement>, table: map<string, string>): Result<seq<string>> {
    ConcatAll((q: Requirement) => ConvertRequirement(q, table), reqs)
  }

  /** The translations of all requirements succeed exactly when each does. */
  lemma ConvertAllOk(reqs: seq<Requirement>, table: map<string, string>)
    ensures ConvertAll(reqs, table).Ok? <==>
            forall i :: 0 <= i < |reqs| ==> forall j :: 0 <= j < |reqs[i].specs| ==> Supported(reqs[i].specs[j].op)
  {
    var f := (q: Requirement) => ConvertRequirement(q, table);
    ConcatAllOk(f, reqs);
    assert forall i :: 0 <= i < |reqs| ==> f(reqs[i]) == ConvertRequirement(reqs[i], table);
  }

  /** A platform is known when the table maps it to a list (possibly empty). */
  predicate Known(platform: string, opts: Options) {
    platform in opts.platformMap && opts.platformMap[platform].Some?
  }

  /** The platform policy of lines 262-272, in its four cases: no platform
      gives no variants; a known platform gives its list when non-empty and
      nothing otherwise; an unknown one fails unless unknown platforms are
      ignored. */
  function PlatformVariants(platform: string, opts: Options): (r: Result<Option<seq<string>>>)
    ensures r.Err? <==> platform != "" && !Known(platform, opts) && !opts.ignoreUnknownPlatforms
    ensures r.Err? ==> r.error == UnknownPlatform(platform)
    ensures r.Ok? && r.value.Some? <==> platform != "" && Known(platform, opts) && opts.platformMap[platform].value != []
    ensures r.Ok? && r.value.Some? ==> r.value.value == opts.platformMap[platform].value
  {
    if platform == "" then Ok(None)
    else if platform in opts.platformMap && opts.platformMap[platform].Some? then
      var pkgs := opts.platformMap[platform].value;
      if pkgs != [] then Ok(Some(pkgs)) else Ok(None)
    else if opts.ignoreUnknownPlatforms then Ok(None)
    else Err(UnknownPlatform(platform))
  }

  /** `_convert_metadata` followed by the `help` entry that a non-empty
      `Home-page` adds to that same map (lines 240 and 253-255). */
  function EggInfo(info: map<string, string>): map<string, string> {
    if Get(info, "Home-page") != "" then info["help" := "$BROWSER " + info["Home-page"]] else info
  }

  /** The record of one distribution, or the error that stops the installer:
      an unknown requirement operator (raised first) or an unknown platform. */
  function BuildRecord(d: Distribution, opts: Options): (r: Result<Record>)
    ensures var info := ConvertMetadata(d.pkgInfo);
            var reqs := ConvertAll(d.requirements, opts.packageMap);
            var plat := PlatformVariants(Get(info, "Platform"), opts);
            && (r.Ok? <==> reqs.Ok? && plat.Ok?)
            && (reqs.Err? ==> r == Err(reqs.error))
            && (reqs.Ok? && plat.Err? ==> r == Err(plat.error))
            && (r.Ok? ==>
                && r.value.name == ConvertPkgName(d.projectName, opts.packageMap)
                && r.value.version == ConvertVersion(d.version)
                && |r.value.requirements| == 1 + |reqs.value|
                && r.value.requirements[0] == "python-" + ConvertVersion(d.pyVersion) + "+"
                && r.value.requirements[1..] == reqs.value
                && r.value.variants == plat.value)
  {
    var info := ConvertMetadata(d.pkgInfo);
    var reqs :- ConvertAll(d.requirements, opts.packageMap);
    var variants :- PlatformVariants(Get(info, "Platform"), opts);
    var desc :=
      if Get(info, "Summary") != "" then Some(info["Summary"])
      else if Get(info, "Description") != "" then Some(info["Description"])
      else None;
    var author := if Get(info, "Author") != "" then Some(info["Author"]) else None;
    var rezReqs := ["python-" + ConvertVersion(d.pyVersion) + "+"] + reqs;
    assert rezReqs[1..] == reqs;
    Ok(Record(
      ConvertPkgName(d.projectName, opts.packageMap),
      ConvertVersion(d.version),
      rezReqs,
      EggInfo(info),
      desc,
      author,
      variants))
  }

  /** The optional fields of a built record: `description` is the non-empty
      Summary, else the non-empty Description, else absent; `author` is
      present exactly when non-empty; `EGG-INFO` is the PKG-INFO map plus a
      `help` entry exactly when Home-page is non-empty. */
  lemma RecordFieldsPolicy(d: Distribution, opts: Options)
    requires BuildRecord(d, opts).Ok?
    ensures var info, rec := ConvertMetadata(d.pkgInfo), BuildRecord(d, opts).value;
            && (rec.description.None? <==> Get(info, "Summary") == "" && Get(info, "Description") == "")
            && (rec.description.Some? ==> rec.description.value != "")
            && (Get(info, "Summary") != "" ==> rec.description == Some(info["Summary"]))
            && (Get(info, "Summary") == "" && Get(info, "Description") != "" ==> rec.description == Some(info["Description"]))
            && (rec.author.Some? <==> Get(info, "Author") != "")
            && (rec.author.Some? ==> rec.author.value == info["Author"])
            && ("help" in rec.eggInfo <==> Get(info, "Home-page") != "" || "help" in info)
            && (Get(info, "Home-page") != "" ==> rec.eggInfo["help"] == "$BROWSER " + info["Home-page"])
            && (forall k :: k in info && k != "help" ==> k in rec.eggInfo && rec.eggInfo[k] == info[k])
            && (forall k :: k in rec.eggInfo && k != "help" ==> k in info)
  {
  }

  /** PKG-INFO never supplies a key named `help`: such keys start with a
      capital letter. So the `help` entry of `EGG-INFO` is the one built from
      Home-page, and nothing else. */
  lemma NoHelpInPkgInfo(pkgInfo: Option<seq<seq<string>>>)
    ensures "help" !in ConvertMetadata(pkgInfo)
  {
    if pkgInfo.Some? {
      var lines := Flatten(pkgInfo.value);
      ExtractLastWins(lines);
      if "help" in Extract(lines) {
        var i :| 0 <= i < |lines| && MatchesKey(lines[i]) && KeyOf(lines[i]) == "help";
        KeyOfMatchingLine(lines[i]);
      }
    }
  }

  /** The top-level keys of the manifest a record produces. */
  function RecordFields(r: Record): (m: map<string, Value>)
    ensures "help" !in m && "commands" !in m
    ensures {"config_version", "name", "version", "requires", "EGG-INFO"} <= m.Keys
    ensures m["config_version"] == Int(0) && m["name"] == Str(r.name) && m["version"] == Str(r.version)
    ensures m["requires"] == List(Strs(r.requirements)) && m["EGG-INFO"] == Map(StrMap(r.eggInfo))
    ensures "description" in m <==> r.description.Some?
    ensures "author" in m <==> r.author.Some?
    ensures "variants" in m <==> r.variants.Some?
    ensures r.variants.Some? ==> m["variants"] == List(Strs(r.variants.value))
    ensures m.Keys <= {"config_version", "name", "version", "requires", "EGG-INFO", "description", "author", "variants"}
  {
    var base := map[
      "config_version" := Int(0),
      "name" := Str(r.name),
      "version" := Str(r.version),
      "requires" := List(Strs(r.requirements)),
      "EGG-INFO" := Map(StrMap(r.eggInfo))];
    var m1 := if r.description.Some? then base["description" := Str(r.description.value)] else base;
    var m2 := if r.author.Some? then m1["author" := Str(r.author.value)] else m1;
    if r.variants.Some? then m2["variants" := List(Strs(r.variants.value))] else m2
  }

  /** `d.get("variants") or []`. */
  function VariantsOf(r: Record): seq<string> {
    if r.variants.Some? then r.variants.value else []
  }

  /** An egg ready for installation: where its files come from and its record. */
  datatype Egg = Egg(eggDir: string, walk: seq<WalkEntry>, record: Record)

  function EggOf(d: Distribution, r: Record): Egg {
    Egg(d.eggDir, d.walk, r)
  }

  /** A left-to-right fold that stops at the first failing element and
      otherwise assigns `table[key] = value` for each element in order. */
  function Table<D, V>(f: D -> Result<(string, V)>, ds: seq<D>): Result<map<string, V>> {
    if ds == [] then Ok(map[])
    else
      var t :- Table(f, ds[..|ds| - 1]);
      var kv :- f(ds[|ds| - 1]);
      Ok(t[kv.0 := kv.1])
  }

  /** `ds[i]` is the last element whose key is `k`. */
  predicate LastKeyed<D, V>(f: D -> Result<(string, V)>, ds: seq<D>, i: int, k: string) {
    && 0 <= i < |ds|
    && f(ds[i]).Ok? && f(ds[i]).value.0 == k
    && forall j :: i < j < |ds| ==> f(ds[j]).Ok? ==> f(ds[j]).value.0 != k
  }

  lemma {:induction false} TableOk<D, V>(f: D -> Result<(string, V)>, ds: seq<D>)
    ensures Table(f, ds).Ok? <==> forall i :: 0 <= i < |ds| ==> f(ds[i]).Ok?
    decreases |ds|
  {
    if ds != [] {
      TableOk(f, ds[..|ds| - 1]);
    }
  }

  lemma {:induction false} TableKeys<D, V>(f: D -> Result<(string, V)>, ds: seq<D>)
    requires Table(f, ds).Ok?
    ensures forall k :: k in Table(f, ds).value <==> exists i :: 0 <= i < |ds| && f(ds[i]).Ok? && f(ds[i]).value.0 == k
    decreases |ds|
  {
    if ds != [] {
      var n := |ds| - 1;
      var init := ds[..n];
      TableOk(f, ds);
      TableKeys(f, init);
      var t := Table(f, ds).value;
      assert forall i :: 0 <= i < n ==> ds[i] == init[i];
      forall k ensures k in t <==> exists i :: 0 <= i < |ds| && f(ds[i]).Ok? && f(ds[i]).value.0 == k {
        if exists i :: 0 <= i < |ds| && f(ds[i]).Ok? && f(ds[i]).value.0 == k {
          var i :| 0 <= i < |ds| && f(ds[i]).Ok? && f(ds[i]).value.0 == k;
          if i < n {
            assert f(init[i]).value.0 == k;
          }
        }
      }
    }
  }

  /** The keys are exactly those of the elements, and each key holds the value
      of its LAST element: later entries replace earlier ones. */
  lemma {:induction false} TableLastWins<D, V>(f: D -> Result<(string, V)>, ds: seq<D>)
    requires Table(f, ds).Ok?
    ensures forall k :: k in Table(f, ds).value <==> exists i :: 0 <= i < |ds| && f(ds[i]).Ok? && f(ds[i]).value.0 == k
    ensures forall k :: k in Table(f, ds).value ==>
              exists i :: LastKeyed(f, ds, i, k) && Table(f, ds).value[k] == f(ds[i]).value.1
    decreases |ds|
  {
    TableKeys(f, ds);
    if ds != [] {
      var n := |ds| - 1;
      var init := ds[..n];
      TableOk(f, ds);
      TableLastWins(f, init);
      var t := Table(f, ds).value;
      var kv := f(ds[n]).value;
      assert forall i :: 0 <= i < n ==> ds[i] == init[i];
      forall k | k in t ensures exists i :: LastKeyed(f, ds, i, k) && t[k] == f(ds[i]).value.1 {
        if k == kv.0 {
          assert LastKeyed(f, ds, n, k);
        } else {
          var i :| LastKeyed(f, init, i, k) && Table(f, init).value[k] == f(init[i]).value.1;
          assert LastKeyed(f, ds, i, k);
        }
      }
    }
  }

  /** One distribution as a table entry: its converted name and its egg. */
  function Entry(d: Distribution, opts: Options): Result<(string, Egg)> {
    var r :- BuildRecord(d, opts);
    Ok((r.name, EggOf(d, r)))
  }

  /** Lines 224-274: build every record in order, stopping at the first
      error; a later egg with the same converted name replaces an earlier one. */
  function BuildEggs(ds: seq<Distribution>, opts: Options): Result<map<string, Egg>> {
    Table((d: Distribution) => Entry(d, opts), ds)
  }

  /** `ds[i]` is the last distribution whose converted name is `name`. */
  predicate LastNamed(ds: seq<Distribution>, opts: Options, i: int, name: string) {
    && 0 <= i < |ds|
    && ConvertPkgName(ds[i].projectName, opts.packageMap) == name
    && forall j :: i < j < |ds| ==> ConvertPkgName(ds[j].projectName, opts.packageMap) != name
  }

  /** An entry exists exactly when the record builds, and is keyed by the
      converted name. */
  lemma EntryOf(d: Distribution, opts: Options)
    ensures Entry(d, opts).Ok? <==> BuildRecord(d, opts).Ok?
    ensures Entry(d, opts).Ok? ==>
              Entry(d, opts).value == (ConvertPkgName(d.projectName, opts.packageMap), EggOf(d, BuildRecord(d, opts).value))
  {
  }

  /** Building succeeds exactly when every record builds; the table then
      holds one egg per converted name, built from the LAST distribution
      carrying that name. */
  lemma BuildEggsSpec(ds: seq<Distribution>, opts: Options)
    ensures BuildEggs(ds, opts).Ok? <==> forall i :: 0 <= i < |ds| ==> BuildRecord(ds[i], opts).Ok?
    ensures BuildEggs(ds, opts).Ok? ==>
              forall name :: name in BuildEggs(ds, opts).value <==>
                exists i :: 0 <= i < |ds| && ConvertPkgName(ds[i].projectName, opts.packageMap) == name
    ensures BuildEggs(ds, opts).Ok? ==>
              forall name :: name in BuildEggs(ds, opts).value ==>
                exists i :: LastNamed(ds, opts, i, name) && BuildRecord(ds[i], opts).Ok? &&
                  BuildEggs(ds, opts).value[name] == EggOf(ds[i], BuildRecord(ds[i], opts).value)
  {
    var f := (d: Distribution) => Entry(d, opts);
    TableOk(f, ds);
    forall i | 0 <= i < |ds| ensures f(ds[i]).Ok? <==> BuildRecord(ds[i], opts).Ok? {
      EntryOf(ds[i], opts);
    }
    if BuildEggs(ds, opts).Ok? {
      BuildEggsKeys(ds, opts);
    }
  }

  /** The keys and values of a successful build. */
  lemma BuildEggsKeys(ds: seq<Distribution>, opts: Options)
    requires BuildEggs(ds, opts).Ok?
    ensures forall name :: name in BuildEggs(ds, opts).value <==>
              exists i :: 0 <= i < |ds| && ConvertPkgName(ds[i].projectName, opts.packageMap) == name
    ensures forall name :: name in BuildEggs(ds, opts).value ==>
              exists i :: LastNamed(ds, opts, i, name) && BuildRecord(ds[i], opts).Ok? &&
                BuildEggs(ds, opts).value[name] == EggOf(ds[i], BuildRecord(ds[i], opts).value)
  {
    var f := (d: Distribution) => Entry(d, opts);
    TableOk(f, ds);
    TableLastWins(f, ds);
    forall i | 0 <= i < |ds|
      ensures f(ds[i]).Ok? && f(ds[i]).value == (ConvertPkgName(ds[i].projectName, opts.packageMap), EggOf(ds[i], BuildRecord(ds[i], opts).value))
    {
      EntryOf(ds[i], opts);
    }
    var t := BuildEggs(ds, opts).value;
    forall name | name in t
      ensures exists i :: LastNamed(ds, opts, i, name) && BuildRecord(ds[i], opts).Ok? && t[name] == EggOf(ds[i], BuildRecord(ds[i], opts).value)
    {
      var i :| LastKeyed(f, ds, i, name) && t[name] == f(ds[i]).value.1;
      assert LastNamed(ds, opts, i, name);
    }
  }
}

=== FILE: install.dfy ===
/** The per-egg install step (lines 299-379): the skip rule, the directory
    and copy bookkeeping, the additive merge into `package.yaml`, and the
    write-once timestamp. */
module Install {
  import opened Results
  import opened Values
  import opened Text
  import opened Layout
  import opened Build

  /** The command that puts an installed egg on `PYTHONPATH`. */
  function Command(eggDir: string): string {
    "export PYTHONPATH=$PYTHONPATH:!ROOT!/" + eggDir
  }

  /** Lines 349-351: every record key the manifest lacks is added; keys the
      manifest already has keep their values. */
  function AddAbsent(existing: map<string, Value>, fields: map<string, Value>): (m: map<string, Value>)
    ensures m.Keys == existing.Keys + fields.Keys
    ensures forall k :: k in existing ==> m[k] == existing[k]
    ensures forall k :: k in fields && k !in existing ==> m[k] == fields[k]
  {
    map k | k in existing.Keys + fields.Keys :: if k in existing then existing[k] else fields[k]
  }

  /** The value under `key`, an empty list when absent (lines 354-355, 359-360). */
  function ListOr(m: map<string, Value>, key: string): Value {
    if key in m then m[key] else List([])
  }

  /** Lines 353-356: one element, the list of variant tokens, is appended to
      `variants`; a `variants` value that is not a list cannot be appended to. */
  function AppendVariant(m: map<string, Value>, variants: seq<string>): Result<map<string, Value>> {
    var cur := ListOr(m, "variants");
    if cur.List? then Ok(m["variants" := List(cur.items + [List(Strs(variants))])])
    else Err(MalformedManifest("variants"))
  }

  /** Python's `cmd in v` for the kinds of value `commands` may hold: list
      membership, substring of a string, key of a map. */
  predicate HasCommand(v: Value, cmd: string) {
    match v
    case List(items) => Str(cmd) in items
    case Str(s) => IsSubstring(cmd, s)
    case Map(entries) => cmd in entries
    case Int(_) => false
  }

  /** Lines 358-362: the command is appended unless already present. Only a
      list can be appended to, so a string or map lacking it, or an integer,
      is an error. */
  function AddCommand(m: map<string, Value>, cmd: string): Result<map<string, Value>> {
    var cur := ListOr(m, "commands");
    if HasCommand(cur, cmd) then Ok(m["commands" := cur])
    else if cur.List? then Ok(m["commands" := List(cur.items + [Str(cmd)])])
    else Err(MalformedManifest("commands"))
  }

  /** The manifest merge of lines 349-362. */
  function Merge(existing: map<string, Value>, fields: map<string, Value>, variants: seq<string>, eggDir: string): Result<map<string, Value>> {
    var m1 := AddAbsent(existing, fields);
    var m2 :- if variants != [] then AppendVariant(m1, variants) else Ok(m1);
    AddCommand(m2, Command(eggDir))
  }

  /** The merge only adds: it fails exactly on a `variants` entry it must
      append to that is not a list, or a `commands` entry that neither holds
      the command nor is a list. Otherwise every key of the manifest survives
      with its value (bar `variants` and `commands`), every record key it
      lacked is added, and `commands` always ends up holding the command. */
  lemma MergeSpec(existing: map<string, Value>, fields: map<string, Value>, variants: seq<string>, eggDir: string)
    ensures var r, m1, cmd := Merge(existing, fields, variants, eggDir), AddAbsent(existing, fields), Command(eggDir);
            var cur := ListOr(m1, "commands");
            && (r.Err? <==> (variants != [] && !ListOr(m1, "variants").List?) || (!HasCommand(cur, cmd) && !cur.List?))
            && (r.Ok? ==>
                && r.value.Keys == existing.Keys + fields.Keys + {"commands"} + (if variants != [] then {"variants"} else {})
                && (forall k :: k in existing && k != "variants" && k != "commands" ==> r.value[k] == existing[k])
                && (forall k :: k in fields && k !in existing && k != "variants" && k != "commands" ==> r.value[k] == fields[k])
                && (variants == [] && "variants" in m1 ==> r.value["variants"] == m1["variants"])
                && HasCommand(r.value["commands"], cmd))
  {
  }

  /** Non-empty variants append exactly one element, the list of tokens, to
      the `variants` list the manifest (or else the record) had. */
  lemma MergeAppendsOneVariant(existing: map<string, Value>, fields: map<string, Value>, variants: seq<string>, eggDir: string)
    requires variants != []
    requires Merge(existing, fields, variants, eggDir).Ok?
    ensures var before := ListOr(AddAbsent(existing, fields), "variants");
            var after := Merge(existing, fields, variants, eggDir).value["variants"];
            && before.List? && after.List?
            && |after.items| == |before.items| + 1
            && after.items[..|before.items|] == before.items
            && after.items[|before.items|] == List(Strs(variants))
  {
    var before := ListOr(AddAbsent(existing, fields), "variants");
    var after := Merge(existing, fields, variants, eggDir).value["variants"];
    assert after == List(before.items + [List(Strs(variants))]);
  }

  /** A `commands` list ends up holding the command exactly once if it held
      it at most once: the command is never duplicated, and other entries
      keep their order. */
  lemma MergeCommandOnce(existing: map<string, Value>, fields: map<string, Value>, variants: seq<string>, eggDir: string)
    requires ListOr(AddAbsent(existing, fields), "commands").List?
    ensures Merge(existing, fields, variants, eggDir).Ok? <==> (variants == [] || ListOr(AddAbsent(existing, fields), "variants").List?)
    ensures var cmd, before := Command(eggDir), ListOr(AddAbsent(existing, fields), "commands").items;
            var r := Merge(existing, fields, variants, eggDir);
            r.Ok? ==>
              && r.value["commands"].List?
              && Count(r.value["commands"].items, Str(cmd)) == (if Count(before, Str(cmd)) == 0 then 1 else Count(before, Str(cmd)))
              && r.value["commands"].items[..|before|] == before
  {
    var cmd, before := Command(eggDir), ListOr(AddAbsent(existing, fields), "commands").items;
    var r := Merge(existing, fields, variants, eggDir);
    CountPositive(before, Str(cmd));
    if r.Ok? && Str(cmd) !in before {
      assert r.value["commands"].items == before + [Str(cmd)];
      CountAppend(before, [Str(cmd)], Str(cmd));
      assert [Str(cmd)][1..] == [];
    }
  }

  /** Without variants, merging again is a no-op: all record keys are already
      there and so is the command. */
  lemma MergeIdempotentWithoutVariants(existing: map<string, Value>, fields: map<string, Value>, eggDir: string)
    requires Merge(existing, fields, [], eggDir).Ok?
    ensures Merge(Merge(existing, fields, [], eggDir).value, fields, [], eggDir) == Merge(existing, fields, [], eggDir)
  {
    var m := Merge(existing, fields, [], eggDir).value;
    MergeSpec(existing, fields, [], eggDir);
    assert AddAbsent(m, fields) == m;
    var cmd := Command(eggDir);
    assert HasCommand(ListOr(m, "commands"), cmd);
    assert m["commands" := ListOr(m, "commands")] == m;
  }

  /** The installer's run-wide settings; `now` stands for `time.time()`. */
  datatype Config = Config(installPath: Path, dryRun: bool, now: int)

  /** What one egg's step did: skipped because its variant path exists, or
      installed with the given (merged) manifest. */
  datatype Outcome =
    | Skipped(variantPath: Path)
    | Installed(variantPath: Path, manifest: map<string, Value>)

  /** Lines 339-345: the manifest stored at `yaml`, or an empty one when the
      file is absent or empty. */
  function ExistingManifest(fs: Fs, yaml: Path): map<string, Value> {
    if yaml in fs.paths && yaml in fs.manifests then fs.manifests[yaml] else map[]
  }

  /** Lines 372-379: write the manifest, and the timestamp only when the
      timestamp file does not exist yet. */
  function WriteOutputs(fs: Fs, yaml: Path, manifest: map<string, Value>, timefile: Path, now: int): (r: Fs)
    ensures fs.paths + {yaml, timefile} == r.paths
    ensures r.manifests == fs.manifests[yaml := manifest]
    ensures timefile in fs.paths + {yaml} ==> r.stamps == fs.stamps
    ensures timefile !in fs.paths + {yaml} ==> r.stamps == fs.stamps[timefile := now]
  {
    var fs1 := fs.(paths := fs.paths + {yaml}, manifests := fs.manifests[yaml := manifest]);
    if timefile in fs1.paths then fs1
    else fs1.(paths := fs1.paths + {timefile}, stamps := fs1.stamps[timefile := now])
  }

  /** Lines 318-335: create `.metadata` and the variant directory, copy the
      tree under `<variant>/<egg dir>`, then lock every recorded directory. */
  function Prepare(cfg: Config, st: State, pkg: Path, vpath: Path, egg: Egg, variants: seq<string>): (r: State)
    ensures r.fs.paths >= st.fs.paths
    ensures r.fs.manifests == st.fs.manifests && r.fs.stamps == st.fs.stamps
    ensures cfg.dryRun ==> r.fs == st.fs && r.destdirs == st.destdirs && r.copied == st.copied
    ensures !cfg.dryRun ==> MetaPath(pkg) in r.fs.paths && vpath in r.fs.paths
    ensures !cfg.dryRun ==> forall p :: p in TreeTargets(Join(vpath, [egg.eggDir]), egg.walk) ==> p in r.fs.paths
    ensures IsPrefix(st.locked, r.locked) && |r.locked| - |st.locked| == |r.destdirs|
    ensures r.locked[|r.locked| - |r.destdirs|..] == Reversed(r.destdirs)
  {
    var s1 := Mkdir(st, MetaPath(pkg), false, cfg.dryRun);
    var s2 := Mkdir(s1, vpath, variants != [], cfg.dryRun);
    var s3 := CopyTree(s2, Join(vpath, [egg.eggDir]), egg.walk, cfg.dryRun);
    assert LockDown(s3).locked[|s3.locked|..] == Reversed(s3.destdirs);
    if cfg.dryRun then LockDown(s3)
    else
      CopyTreeCreates(s2, Join(vpath, [egg.eggDir]), egg.walk, cfg.dryRun);
      LockDown(s3)
  }

  /** Lines 318-319: `.metadata` is never recorded for lock-down, and a newly
      created variant directory is recorded exactly when there are variants.
      Nothing recorded earlier is dropped. */
  lemma PrepareRecords(cfg: Config, st: State, pkg: Path, vpath: Path, egg: Egg, variants: seq<string>)
    ensures var r := Prepare(cfg, st, pkg, vpath, egg, variants);
            && IsPrefix(st.destdirs, r.destdirs)
            && MetaPath(pkg) !in r.destdirs[|st.destdirs|..]
            && (!cfg.dryRun && vpath !in st.fs.paths && vpath !in Prefixes(MetaPath(pkg)) ==>
                  (vpath in r.destdirs[|st.destdirs|..] <==> variants != []))
  {
    var s1 := Mkdir(st, MetaPath(pkg), false, cfg.dryRun);
    var s2 := Mkdir(s1, vpath, variants != [], cfg.dryRun);
    var s3 := CopyTree(s2, Join(vpath, [egg.eggDir]), egg.walk, cfg.dryRun);
    assert Prepare(cfg, st, pkg, vpath, egg, variants).destdirs == s3.destdirs;
    assert s1.destdirs == st.destdirs;
    var made := s2.destdirs[|st.destdirs|..];
    var copied := s3.destdirs[|s2.destdirs|..];
    SuffixSplit(st.destdirs, s2.destdirs, s3.destdirs);
    NewDirsAreNew(s2, s3);
    if cfg.dryRun {
      assert made == [] && copied == [];
    } else {
      assert MetaPath(pkg) in s2.fs.paths && vpath in s2.fs.paths;
      assert made == [] || made == [vpath];
      assert vpath in made ==> vpath !in s1.fs.paths;
      if vpath !in st.fs.paths && vpath !in Prefixes(MetaPath(pkg)) {
        assert vpath !in s1.fs.paths;
        assert made == (if variants != [] then [vpath] else []);
      }
    }
  }

  /** One iteration of the install loop for egg `name`, with `variants` the
      variant tokens that iteration reads. */
  function InstallEgg(cfg: Config, st: State, name: string, egg: Egg, variants: seq<string>): Result<(State, Outcome)> {
    var pkg := PkgPath(cfg.installPath, name, egg.record.version);
    var vpath := VariantPath(pkg, variants);
    if vpath in st.fs.paths then Ok((st, Skipped(vpath)))
    else
      var s := Prepare(cfg, st, pkg, vpath, egg, variants);
      var manifest :- Merge(ExistingManifest(s.fs, YamlPath(pkg)), RecordFields(egg.record), variants, egg.eggDir);
      var fs := if cfg.dryRun then s.fs else WriteOutputs(s.fs, YamlPath(pkg), manifest, TimePath(pkg), cfg.now);
      Ok((s.(fs := fs), Installed(vpath, manifest)))
  }

  /** The variant path the step for `name` uses. */
  function EggVariantPath(cfg: Config, name: string, egg: Egg, variants: seq<string>): Path {
    VariantPath(PkgPath(cfg.installPath, name, egg.record.version), variants)
  }

  /** Skip rule: an existing variant path means nothing is created, copied or
      written; otherwise the egg is installed at that path. */
  lemma InstallEggSkips(cfg: Config, st: State, name: string, egg: Egg, variants: seq<string>)
    ensures var vpath, r := EggVariantPath(cfg, name, egg, variants), InstallEgg(cfg, st, name, egg, variants);
            && (vpath in st.fs.paths ==> r == Ok((st, Skipped(vpath))))
            && (r.Ok? && r.value.1.Installed? ==> vpath !in st.fs.paths && r.value.1.variantPath == vpath)
            && (r.Ok? ==> r.value.1.variantPath == vpath)
            && (vpath !in st.fs.paths && r.Ok? ==> r.value.1.Installed?)
  {
  }

  /** A dry run leaves the filesystem and the logs of created and copied
      paths as they were, yet computes the manifest it would write. */
  lemma InstallEggDryRun(cfg: Config, st: State, name: string, egg: Egg, variants: seq<string>)
    requires cfg.dryRun
    ensures var r := InstallEgg(cfg, st, name, egg, variants);
            r.Ok? ==> r.value.0.fs == st.fs && r.value.0.destdirs == st.destdirs && r.value.0.copied == st.copied
  {
  }

  /** A real install reads the manifest as it was before the step, writes the
      merged manifest, creates the variant path (so installing again skips),
      never rewrites an existing timestamp, and stamps `now` only on a
      timestamp file it creates. */
  lemma InstallEggWrites(cfg: Config, st: State, name: string, egg: Egg, variants: seq<string>)
    requires !cfg.dryRun && Consistent(st.fs)
    requires InstallEgg(cfg, st, name, egg, variants).Ok?
    requires InstallEgg(cfg, st, name, egg, variants).value.1.Installed?
    ensures var pkg := PkgPath(cfg.installPath, name, egg.record.version);
            var r := InstallEgg(cfg, st, name, egg, variants).value;
            && r.1.manifest == Merge(ExistingManifest(st.fs, YamlPath(pkg)), RecordFields(egg.record), variants, egg.eggDir).value
            && st.fs.paths <= r.0.fs.paths
            && r.1.variantPath in r.0.fs.paths
            && YamlPath(pkg) in r.0.fs.paths && r.0.fs.manifests[YamlPath(pkg)] == r.1.manifest
            && TimePath(pkg) in r.0.fs.paths
            && Consistent(r.0.fs)
            && (forall p :: p in st.fs.manifests && p != YamlPath(pkg) ==> p in r.0.fs.manifests && r.0.fs.manifests[p] == st.fs.manifests[p])
            && (forall t :: t in st.fs.stamps ==> t in r.0.fs.stamps && r.0.fs.stamps[t] == st.fs.stamps[t])
            && (forall t :: t in r.0.fs.stamps && t !in st.fs.stamps ==> t == TimePath(pkg) && r.0.fs.stamps[t] == cfg.now)
  {
    var pkg := PkgPath(cfg.installPath, name, egg.record.version);
    var vpath := VariantPath(pkg, variants);
    var s := Prepare(cfg, st, pkg, vpath, egg, variants);
    assert ExistingManifest(s.fs, YamlPath(pkg)) == ExistingManifest(st.fs, YamlPath(pkg));
    var manifest := Merge(ExistingManifest(s.fs, YamlPath(pkg)), RecordFields(egg.record), variants, egg.eggDir).value;
    var fs := WriteOutputs(s.fs, YamlPath(pkg), manifest, TimePath(pkg), cfg.now);
    assert InstallEgg(cfg, st, name, egg, variants) == Ok((s.(fs := fs), Installed(vpath, manifest)));
    WriteOutputsKeeps(s.fs, YamlPath(pkg), manifest, TimePath(pkg), cfg.now);
  }

  /** Writing keeps a consistent filesystem consistent, leaves the other
      manifests and every existing timestamp alone, and adds at most the one
      timestamp it was asked to write. */
  lemma WriteOutputsKeeps(fs: Fs, yaml: Path, manifest: map<string, Value>, timefile: Path, now: int)
    requires Consistent(fs)
    ensures var r := WriteOutputs(fs, yaml, manifest, timefile, now);
            && Consistent(r)
            && (forall p :: p in fs.manifests && p != yaml ==> p in r.manifests && r.manifests[p] == fs.manifests[p])
            && (forall t :: t in fs.stamps ==> t in r.stamps && r.stamps[t] == fs.stamps[t])
            && (forall t :: t in r.stamps && t !in fs.stamps ==> t == timefile && r.stamps[t] == now)
  {
  }

  /** Installing the same egg again after a real install skips it. */
  lemma ReinstallSkips(cfg: Config, st: State, name: string, egg: Egg, variants: seq<string>)
    requires !cfg.dryRun
    requires InstallEgg(cfg, st, name, egg, variants).Ok?
    ensures var st2 := InstallEgg(cfg, st, name, egg, variants).value.0;
            InstallEgg(cfg, st2, name, egg, variants) == Ok((st2, Skipped(EggVariantPath(cfg, name, egg, variants))))
  {
    var st2 := InstallEgg(cfg, st, name, egg, variants).value.0;
    InstallEggCreates(cfg, st, name, egg, variants);
    InstallEggSkips(cfg, st2, name, egg, variants);
  }

  /** After a real step, skipped or not, the variant path exists. */
  lemma InstallEggCreates(cfg: Config, st: State, name: string, egg: Egg, variants: seq<string>)
    requires !cfg.dryRun
    requires InstallEgg(cfg, st, name, egg, variants).Ok?
    ensures EggVariantPath(cfg, name, egg, variants) in InstallEgg(cfg, st, name, egg, variants).value.0.fs.paths
  {
    var pkg := PkgPath(cfg.installPath, name, egg.record.version);
    var vpath := VariantPath(pkg, variants);
    if vpath !in st.fs.paths {
      var s := Prepare(cfg, st, pkg, vpath, egg, variants);
      assert vpath in s.fs.paths;
    }
  }

  /** One step of the install loop, as a value the loop can be run with. */
  function Step(cfg: Config): (State, string, Egg, seq<string>) -> Result<(State, Outcome)> {
    (st: State, name: string, egg: Egg, variants: seq<string>) => InstallEgg(cfg, st, name, egg, variants)
  }

  /** `s2` follows `s` without losing anything: consistency, existing paths
      and existing timestamps survive, and a dry run changes no file. */
  predicate KeptBy(cfg: Config, s: State, s2: State) {
    && Consistent(s2.fs)
    && s.fs.paths <= s2.fs.paths
    && (cfg.dryRun ==> s2.fs == s.fs)
    && (forall t :: t in s.fs.stamps ==> t in s2.fs.stamps && s2.fs.stamps[t] == s.fs.stamps[t])
  }

  lemma KeptByTransitive(cfg: Config, a: State, b: State, c: State)
    requires KeptBy(cfg, a, b) && KeptBy(cfg, b, c)
    ensures KeptBy(cfg, a, c)
  {
  }

  /** The facts about a step that the loop needs: where it installs, and
      that it keeps what exists. */
  ghost predicate StepFacts(cfg: Config, step: (State, string, Egg, seq<string>) -> Result<(State, Outcome)>) {
    forall s, n, e, v :: step(s, n, e, v).Ok? ==>
      && step(s, n, e, v).value.1.variantPath == EggVariantPath(cfg, n, e, v)
      && (Consistent(s.fs) ==> KeptBy(cfg, s, step(s, n, e, v).value.0))
  }

  lemma StepHasFacts(cfg: Config)
    ensures StepFacts(cfg, Step(cfg))
  {
    forall s, n, e, v | Step(cfg)(s, n, e, v).Ok?
      ensures && Step(cfg)(s, n, e, v).value.1.variantPath == EggVariantPath(cfg, n, e, v)
              && (Consistent(s.fs) ==> KeptBy(cfg, s, Step(cfg)(s, n, e, v).value.0))
    {
      InstallEggSkips(cfg, s, n, e, v);
      if Consistent(s.fs) {
        EggStepKeeps(cfg, s, n, e, v);
      }
    }
  }

  /** The variants the step at position `i` reads. As written, that is the
      record bound just before it: the previous egg's, or `prev` (the last
      record built) for the first. As intended, the egg's own. */
  function VariantsAt(own: bool, order: seq<string>, eggs: map<string, Egg>, prev: Record, i: int): seq<string>
    requires 0 <= i < |order|
    requires forall j :: 0 <= j < |order| ==> order[j] in eggs
  {
    if own then VariantsOf(eggs[order[i]].record)
    else if i == 0 then VariantsOf(prev)
    else VariantsOf(eggs[order[i - 1]].record)
  }

  /** The install loop over the eggs in iteration order `order`, running
      `step` on each; `prev` is the record bound when the loop starts. */
  function Loop(step: (State, string, Egg, seq<string>) -> Result<(State, Outcome)>, own: bool,
                st: State, order: seq<string>, eggs: map<string, Egg>, prev: Record): Result<(State, seq<Outcome>)>
    requires forall j :: 0 <= j < |order| ==> order[j] in eggs
    decreases |order|
  {
    if order == [] then Ok((st, []))
    else
      var egg := eggs[order[0]];
      var first :- step(st, order[0], egg, if own then VariantsOf(egg.record) else VariantsOf(prev));
      var rest :- Loop(step, own, first.0, order[1..], eggs, egg.record);
      Ok((rest.0, [first.1] + rest.1))
  }

  lemma {:induction false} LoopSpec(cfg: Config, step: (State, string, Egg, seq<string>) -> Result<(State, Outcome)>, own: bool,
                                    st: State, order: seq<string>, eggs: map<string, Egg>, prev: Record)
    requires StepFacts(cfg, step)
    requires forall j :: 0 <= j < |order| ==> order[j] in eggs
    requires Consistent(st.fs)
    ensures var r := Loop(step, own, st, order, eggs, prev);
            r.Ok? ==>
              && |r.value.1| == |order|
              && (forall i :: 0 <= i < |order| ==>
                    r.value.1[i].variantPath == EggVariantPath(cfg, order[i], eggs[order[i]], VariantsAt(own, order, eggs, prev, i)))
              && KeptBy(cfg, st, r.value.0)
    decreases |order|
  {
    var r := Loop(step, own, st, order, eggs, prev);
    if order != [] && r.Ok? {
      var egg := eggs[order[0]];
      var first := step(st, order[0], egg, if own then VariantsOf(egg.record) else VariantsOf(prev)).value;
      LoopSpec(cfg, step, own, first.0, order[1..], eggs, egg.record);
      var rest := Loop(step, own, first.0, order[1..], eggs, egg.record).value;
      KeptByTransitive(cfg, st, first.0, rest.0);
      forall i | 1 <= i < |order|
        ensures r.value.1[i].variantPath == EggVariantPath(cfg, order[i], eggs[order[i]], VariantsAt(own, order, eggs, prev, i))
      {
        assert r.value.1[i] == rest.1[i - 1];
        assert order[1..][i - 1] == order[i];
        if i > 1 {
          assert order[1..][i - 2] == order[i - 1];
        }
        assert VariantsAt(own, order[1..], eggs, egg.record, i - 1) == VariantsAt(own, order, eggs, prev, i);
      }
    }
  }

  /** Lines 299-379 as written. */
  function InstallAll(cfg: Config, st: State, order: seq<string>, eggs: map<string, Egg>, prev: Record): Result<(State, seq<Outcome>)>
    requires forall j :: 0 <= j < |order| ==> order[j] in eggs
  {
    Loop(Step(cfg), false, st, order, eggs, prev)
  }

  /** Each egg lands at the variant path built from the PREVIOUS record's
      variants; a dry run leaves the filesystem untouched; existing paths and
      timestamps survive the whole run. */
  lemma InstallAllSpec(cfg: Config, st: State, order: seq<string>, eggs: map<string, Egg>, prev: Record)
    requires forall j :: 0 <= j < |order| ==> order[j] in eggs
    requires Consistent(st.fs)
    ensures var r := InstallAll(cfg, st, order, eggs, prev);
            r.Ok? ==>
              && |r.value.1| == |order|
              && (forall i :: 0 <= i < |order| ==>
                    r.value.1[i].variantPath == EggVariantPath(cfg, order[i], eggs[order[i]], VariantsAt(false, order, eggs, prev, i)))
              && (cfg.dryRun ==> r.value.0.fs == st.fs)
              && Consistent(r.value.0.fs)
              && st.fs.paths <= r.value.0.fs.paths
              && (forall t :: t in st.fs.stamps ==> t in r.value.0.fs.stamps && r.value.0.fs.stamps[t] == st.fs.stamps[t])
  {
    StepHasFacts(cfg);
    LoopSpec(cfg, Step(cfg), false, st, order, eggs, prev);
  }

  /** What one step keeps, in either mode: consistency, existing paths and
      existing timestamps; in a dry run, the whole filesystem. */
  lemma EggStepKeeps(cfg: Config, st: State, name: string, egg: Egg, variants: seq<string>)
    requires Consistent(st.fs)
    requires InstallEgg(cfg, st, name, egg, variants).Ok?
    ensures var s := InstallEgg(cfg, st, name, egg, variants).value.0;
            && Consistent(s.fs)
            && st.fs.paths <= s.fs.paths
            && (cfg.dryRun ==> s.fs == st.fs)
            && (forall t :: t in st.fs.stamps ==> t in s.fs.stamps && s.fs.stamps[t] == st.fs.stamps[t])
  {
    var r := InstallEgg(cfg, st, name, egg, variants).value;
    if r.1.Installed? && !cfg.dryRun {
      InstallEggWrites(cfg, st, name, egg, variants);
    }
  }

  /** With two eggs, the second is installed under the FIRST egg's variants:
      whenever the two records carry different variants, the second egg's
      variant path is not the one its own record asks for. */
  lemma VariantsComeFromPreviousEgg(cfg: Config, st: State, a: string, b: string, eggs: map<string, Egg>, prev: Record)
    requires a in eggs && b in eggs && Consistent(st.fs)
    requires InstallAll(cfg, st, [a, b], eggs, prev).Ok?
    ensures var outs := InstallAll(cfg, st, [a, b], eggs, prev).value.1;
            && |outs| == 2
            && outs[0].variantPath == EggVariantPath(cfg, a, eggs[a], VariantsOf(prev))
            && outs[1].variantPath == EggVariantPath(cfg, b, eggs[b], VariantsOf(eggs[a].record))
            && (NonEmpty(VariantsOf(eggs[a].record)) != NonEmpty(VariantsOf(eggs[b].record)) ==>
                  outs[1].variantPath != EggVariantPath(cfg, b, eggs[b], VariantsOf(eggs[b].record)))
  {
    InstallAllSpec(cfg, st, [a, b], eggs, prev);
    var pkg := PkgPath(cfg.installPath, b, eggs[b].record.version);
    var va, vb := VariantsOf(eggs[a].record), VariantsOf(eggs[b].record);
    if NonEmpty(va) != NonEmpty(vb) {
      assert Join(pkg, va)[|pkg|..] == NonEmpty(va);
      assert Join(pkg, vb)[|pkg|..] == NonEmpty(vb);
    }
  }

  /** The loop as evidently intended: each egg is installed under the variants
      of its OWN record. */
  function InstallAllOwn(cfg: Config, st: State, order: seq<string>, eggs: map<string, Egg>): Result<(State, seq<Outcome>)>
    requires forall j :: 0 <= j < |order| ==> order[j] in eggs
  {
    if order == [] then Ok((st, [])) else Loop(Step(cfg), true, st, order, eggs, eggs[order[0]].record)
  }

  /** Under the intended loop every egg lands at the variant path of its own
      record, whatever the iteration order. */
  lemma InstallAllOwnSpec(cfg: Config, st: State, order: seq<string>, eggs: map<string, Egg>)
    requires forall j :: 0 <= j < |order| ==> order[j] in eggs
    requires Consistent(st.fs)
    ensures var r := InstallAllOwn(cfg, st, order, eggs);
            r.Ok? ==>
              && |r.value.1| == |order|
              && forall i :: 0 <= i < |order| ==>
                   r.value.1[i].variantPath == EggVariantPath(cfg, order[i], eggs[order[i]], VariantsOf(eggs[order[i]].record))
  {
    if order != [] {
      StepHasFacts(cfg);
      LoopSpec(cfg, Step(cfg), true, st, order, eggs, eggs[order[0]].record);
    }
  }

  /** Line 310 on the variant list as Python holds it: `os.path.join` takes
      only strings, so a list element among the tokens raises. */
  function JoinComponents(vs: seq<Value>): (r: Result<seq<string>>)
    ensures r.Ok? <==> forall i :: 0 <= i < |vs| ==> vs[i].Str?
    ensures r.Ok? ==> Strs(r.value) == vs
    ensures r.Err? ==> r.error == NotAPathComponent
  {
    if vs == [] then Ok([])
    else if !vs[0].Str? then Err(NotAPathComponent)
    else
      var rest :- JoinComponents(vs[1..]);
      Ok([vs[0].s] + rest)
  }

  /** The list a record's `variants` key holds after a step that reached the
      merge, having read `read`. With `aliased` (the code as written), line
      351 stores the record's own list object in a manifest lacking
      `variants`, and line 356 appends to that very object; without it (as
      intended) the manifest gets a copy and the record keeps its list. */
  function RecordVariantsAfter(aliased: bool, rec: Record, existing: map<string, Value>, read: seq<string>): seq<Value> {
    var own := Strs(VariantsOf(rec));
    if aliased && read != [] && rec.variants.Some? && "variants" !in existing then own + [List(Strs(read))] else own
  }

  /** As written, the shared list breaks the next egg: the record's list gains
      a list element exactly when the step read non-empty variants, the record
      has variants and the manifest did not, and then the next iteration's
      join at line 310 fails. The appended element is the one the manifest
      itself received. */
  lemma SharedListBreaksNextEgg(rec: Record, existing: map<string, Value>, read: seq<string>, eggDir: string)
    ensures var after := RecordVariantsAfter(true, rec, existing, read);
            && (JoinComponents(after).Err? <==> read != [] && rec.variants.Some? && "variants" !in existing)
            && (JoinComponents(after).Ok? ==> JoinComponents(after).value == VariantsOf(rec))
    ensures var m := Merge(existing, RecordFields(rec), read, eggDir);
            m.Ok? && read != [] && rec.variants.Some? && "variants" !in existing ==>
              m.value["variants"] == List(RecordVariantsAfter(true, rec, existing, read))
  {
    var own := Strs(VariantsOf(rec));
    var after := RecordVariantsAfter(true, rec, existing, read);
    if read != [] && rec.variants.Some? && "variants" !in existing {
      assert !after[|own|].Str?;
    } else {
      StrsInjective(JoinComponents(after).value, VariantsOf(rec));
    }
  }

  /** Two eggs of the same platform, installed fresh: the first step reads
      `["linux"]` and appends it to the shared list (in Python, the list to
      itself), which the second step then cannot join. */
  lemma SharedListExample(rec: Record)
    requires rec.variants == Some(["linux"])
    ensures RecordVariantsAfter(true, rec, map[], ["linux"]) == [Str("linux"), List([Str("linux")])]
    ensures JoinComponents(RecordVariantsAfter(true, rec, map[], ["linux"])) == Err(NotAPathComponent)
  {
    assert Strs(["linux"]) == [Str("linux")];
    SharedListBreaksNextEgg(rec, map[], ["linux"], "");
  }

  /** As intended, with the manifest given a copy: the record's list is never
      changed, so the next egg joins exactly the record's variants, while the
      manifest still gains the one appended element. */
  lemma CopiedListKeepsNextEgg(rec: Record, existing: map<string, Value>, read: seq<string>, eggDir: string)
    ensures JoinComponents(RecordVariantsAfter(false, rec, existing, read)) == Ok(VariantsOf(rec))
    ensures var m := Merge(existing, RecordFields(rec), read, eggDir);
            m.Ok? && read != [] && rec.variants.Some? && "variants" !in existing ==>
              m.value["variants"] == List(Strs(VariantsOf(rec)) + [List(Strs(read))])
  {
    var after := RecordVariantsAfter(false, rec, existing, read);
    StrsInjective(JoinComponents(after).value, VariantsOf(rec));
  }

  /** A `variants` value in the shape the manifest format asks for: a list of
      variant combinations, each a list of string tokens. */
  predicate IsCombinations(v: Value) {
    && v.List?
    && forall i :: 0 <= i < |v.items| ==>
         && v.items[i].List?
         && forall j :: 0 <= j < |v.items[i].items| ==> v.items[i].items[j].Str?
  }

  /** As written, a fresh manifest for a record with variants gets a mixed
      list: line 351 copies the record's flat tokens, and line 356 appends the
      combination after them, so the result is not a list of combinations. */
  lemma FreshManifestMixesVariants(rec: Record, read: seq<string>, eggDir: string)
    requires rec.variants.Some? && rec.variants.value != [] && read != []
    ensures var m := Merge(map[], RecordFields(rec), read, eggDir);
            && m.Ok?
            && m.value["variants"] == List(Strs(rec.variants.value) + [List(Strs(read))])
            && !IsCombinations(m.value["variants"])
  {
    var m := Merge(map[], RecordFields(rec), read, eggDir);
    assert m.value["variants"].items[0] == Str(rec.variants.value[0]);
  }

  /** The merge of lines 349-362 as evidently intended: the record's own token
      list is not copied into the manifest, so `variants` only ever receives
      whole combinations. */
  function MergeIntended(existing: map<string, Value>, fields: map<string, Value>, variants: seq<string>, eggDir: string): Result<map<string, Value>> {
    Merge(existing, fields - {"variants"}, variants, eggDir)
  }

  /** The intended merge keeps `variants` a list of combinations: a fresh
      manifest (for fields without `commands`, as a record's are) cannot
      fail and gets exactly `[read]`, an existing list of combinations gains
      `read` at its end, and without variants the key is left as it was. */
  lemma MergeIntendedKeepsCombinations(existing: map<string, Value>, fields: map<string, Value>, variants: seq<string>, eggDir: string)
    requires "variants" in existing ==> IsCombinations(existing["variants"])
    ensures var m := MergeIntended(existing, fields, variants, eggDir);
            && (existing == map[] && "commands" !in fields ==> m.Ok?)
            && (m.Ok? && variants != [] ==>
                  && IsCombinations(m.value["variants"])
                  && m.value["variants"].items == ListOr(existing, "variants").items + [List(Strs(variants))])
            && (m.Ok? && variants == [] ==> ("variants" in m.value <==> "variants" in existing))
            && (m.Ok? && variants != [] && "variants" !in existing ==> m.value["variants"] == List([List(Strs(variants))]))
  {
    var f := fields - {"variants"};
    var m := MergeIntended(existing, fields, variants, eggDir);
    MergeSpec(existing, f, variants, eggDir);
    assert ListOr(AddAbsent(existing, f), "variants") == ListOr(existing, "variants");
    if m.Ok? && variants != [] {
      MergeAppendsOneVariant(existing, f, variants, eggDir);
      var items := m.value["variants"].items;
      var before := ListOr(existing, "variants").items;
      assert items == before + [List(Strs(variants))] by {
        assert items[..|before|] == before;
      }
    }
  }
}

=== FILE: layout.dfy ===
/** Where a package goes and how its files get there: the abstract filesystem,
    `_mkdir`'s record of created directories, and the copy of an egg's tree. */
module Layout {
  import opened Values
  import opened Text

  /** A filesystem path as its list of components. */
  type Path = seq<string>

  /** The components `os.path.join` keeps: empty ones add nothing. */
  function NonEmpty(parts: seq<string>): seq<string> {
    if parts == [] then []
    else (if parts[0] == "" then [] else [parts[0]]) + NonEmpty(parts[1..])
  }

  /** `os.path.join(p, *parts)`. */
  function Join(p: Path, parts: seq<string>): Path {
    p + NonEmpty(parts)
  }

  /** The kept components are exactly the non-empty ones, in order, so a join
      with only empty components is the base path itself. */
  lemma {:induction false} NonEmptySpec(parts: seq<string>)
    ensures |NonEmpty(parts)| <= |parts|
    ensures forall c :: c in NonEmpty(parts) <==> c in parts && c != ""
    ensures NonEmpty(parts) == [] <==> forall i :: 0 <= i < |parts| ==> parts[i] == ""
    decreases |parts|
  {
    if parts != [] {
      NonEmptySpec(parts[1..]);
      assert forall c :: c in parts <==> c == parts[0] || c in parts[1..];
      assert forall i :: 1 <= i < |parts| ==> parts[i] == parts[1..][i - 1];
    }
  }

  /** Components are kept or dropped one by one, in order: the kept parts of
      `a + b` are the kept parts of `a` followed by those of `b`. */
  lemma {:induction false} NonEmptyAppend(a: seq<string>, b: seq<string>)
    ensures NonEmpty(a + b) == NonEmpty(a) + NonEmpty(b)
    decreases |a|
  {
    if a == [] {
      assert a + b == b;
    } else {
      var x, rest := a[0], a[1..];
      assert a == [x] + rest;
      assert a + b == [x] + (rest + b);
      NonEmptyCons(x, rest + b);
      NonEmptyCons(x, rest);
      NonEmptyAppend(rest, b);
    }
  }

  lemma NonEmptyCons(x: string, rest: seq<string>)
    ensures NonEmpty([x] + rest) == (if x == "" then [] else [x]) + NonEmpty(rest)
  {
    assert ([x] + rest)[1..] == rest;
  }

  /** A single component is kept exactly when it is non-empty. */
  lemma NonEmptyOne(c: string)
    ensures NonEmpty([c]) == if c == "" then [] else [c]
  {
    assert [c][1..] == [];
  }

  /** `pkg_path`: `<install>/<name>/<version>`. */
  function PkgPath(install: Path, name: string, version: string): Path {
    Join(install, [name, version])
  }

  /** `meta_path`: the `.metadata` directory of a package. */
  function MetaPath(pkg: Path): Path {
    Join(pkg, [".metadata"])
  }

  /** `variant_path`: the package path joined with every variant token. */
  function VariantPath(pkg: Path, variants: seq<string>): Path {
    Join(pkg, variants)
  }

  /** The manifest and the timestamp file of a package. */
  function YamlPath(pkg: Path): Path {
    Join(pkg, ["package.yaml"])
  }

  function TimePath(pkg: Path): Path {
    Join(MetaPath(pkg), ["release_time.txt"])
  }

  /** The variant path lies under the package path, and is the package path
      itself exactly when no variant token is non-empty. */
  lemma VariantPathShape(pkg: Path, variants: seq<string>)
    ensures |pkg| <= |VariantPath(pkg, variants)| <= |pkg| + |variants|
    ensures VariantPath(pkg, variants)[..|pkg|] == pkg
    ensures VariantPath(pkg, variants) == pkg <==> forall i :: 0 <= i < |variants| ==> variants[i] == ""
  {
    NonEmptySpec(variants);
  }

  /** The filesystem as the installer sees it: the paths that exist, the
      manifests stored at some of them, and the timestamps written to others. */
  datatype Fs = Fs(paths: set<Path>, manifests: map<Path, map<string, Value>>, stamps: map<Path, int>)

  /** Every manifest and every timestamp sits at an existing path. */
  predicate Consistent(fs: Fs) {
    fs.manifests.Keys <= fs.paths && fs.stamps.Keys <= fs.paths
  }

  /** The filesystem plus the installer's own logs: `destdirs` (directories
      created with `make_ro`), the files copied, and the directories locked
      down by `chmod`, in call order. */
  datatype State = State(fs: Fs, destdirs: seq<Path>, copied: seq<Path>, locked: seq<Path>)

  /** Every prefix of a path, the path itself included: what `os.makedirs`
      brings into being (the ancestors that already exist stay as they are). */
  function Prefixes(p: Path): set<Path> {
    set i | 0 <= i <= |p| :: p[..i]
  }

  predicate IsPrefix<T(==)>(a: seq<T>, b: seq<T>) {
    |a| <= |b| && b[..|a|] == a
  }

  /** The entries `c` adds after `a` are those `b` adds, then those `c` adds after `b`. */
  lemma SuffixSplit<T>(a: seq<T>, b: seq<T>, c: seq<T>)
    requires IsPrefix(a, b) && IsPrefix(b, c)
    ensures c[|a|..] == b[|a|..] + c[|b|..]
  {
    assert c[..|b|] == b;
  }

  /** `st` evolves into `r` by creating paths and extending the logs only:
      nothing is removed, no manifest or stamp changes, and every directory
      newly recorded in `destdirs` did not exist before and exists now. */
  predicate Grows(st: State, r: State) {
    && st.fs.paths <= r.fs.paths
    && r.fs.manifests == st.fs.manifests
    && r.fs.stamps == st.fs.stamps
    && r.locked == st.locked
    && IsPrefix(st.copied, r.copied)
    && IsPrefix(st.destdirs, r.destdirs)
    && (forall i :: |st.destdirs| <= i < |r.destdirs| ==> r.destdirs[i] !in st.fs.paths && r.destdirs[i] in r.fs.paths)
    && (forall i :: |st.copied| <= i < |r.copied| ==> r.copied[i] in r.fs.paths)
  }

  /** Every directory recorded by a growth step did not exist before it. */
  lemma NewDirsAreNew(st: State, r: State)
    requires Grows(st, r)
    ensures forall p :: p in r.destdirs[|st.destdirs|..] ==> p !in st.fs.paths
  {
    forall p | p in r.destdirs[|st.destdirs|..] ensures p !in st.fs.paths {
      var i :| 0 <= i < |r.destdirs[|st.destdirs|..]| && r.destdirs[|st.destdirs|..][i] == p;
      assert r.destdirs[|st.destdirs| + i] == p;
    }
  }

  lemma GrowsTransitive(a: State, b: State, c: State)
    requires Grows(a, b) && Grows(b, c)
    ensures Grows(a, c)
  {
    assert c.copied[..|a.copied|] == c.copied[..|b.copied|][..|a.copied|];
    assert c.destdirs[..|a.destdirs|] == c.destdirs[..|b.destdirs|][..|a.destdirs|];
    forall i | |a.destdirs| <= i < |c.destdirs|
      ensures c.destdirs[i] !in a.fs.paths && c.destdirs[i] in c.fs.paths
    {
      if i < |b.destdirs| {
        assert c.destdirs[i] == b.destdirs[i];
      }
    }
    forall i | |a.copied| <= i < |c.copied| ensures c.copied[i] in c.fs.paths {
      if i < |b.copied| {
        assert c.copied[i] == b.copied[i];
      }
    }
  }

  /** `_mkdir`: an existing path, or a dry run, changes nothing; otherwise the
      path and all its ancestors come into being and, for `make_ro`, the path
      is recorded for the later lock-down. */
  function Mkdir(st: State, path: Path, makeRo: bool, dry: bool): (r: State)
    ensures Grows(st, r)
    ensures dry || path in st.fs.paths ==> r == st
    ensures !dry ==> path in r.fs.paths
    ensures r.fs.paths <= st.fs.paths + Prefixes(path)
    ensures r.copied == st.copied
    ensures r.destdirs == st.destdirs || (makeRo && r.destdirs == st.destdirs + [path])
    ensures !dry && path !in st.fs.paths ==>
              && Prefixes(path) <= r.fs.paths
              && r.destdirs == st.destdirs + (if makeRo then [path] else [])
  {
    if path in st.fs.paths || dry then st
    else
      var paths := st.fs.paths + Prefixes(path);
      assert path[..|path|] in Prefixes(path);
      assert path == path[..|path|];
      st.(fs := st.fs.(paths := paths),
          destdirs := if makeRo then st.destdirs + [path] else st.destdirs)
  }

  /** One `(root, dirs, files)` triple of `os.walk`, with `root` given by its
      components below the egg directory. */
  datatype WalkEntry = WalkEntry(subpath: seq<string>, dirs: seq<string>, files: seq<string>)

  /** Compiled bytecode is not copied. */
  predicate IsPyc(name: string) {
    EndsWith(name, ".pyc")
  }

  /** The file names of `files` that are copied, in order. */
  function Copyable(files: seq<string>): seq<string> {
    if files == [] then []
    else (if IsPyc(files[0]) then [] else [files[0]]) + Copyable(files[1..])
  }

  /** A name is copied exactly when it is listed and does not end in `.pyc`. */
  lemma {:induction false} CopyableSpec(files: seq<string>)
    ensures forall f :: f in Copyable(files) <==> f in files && !IsPyc(f)
    decreases |files|
  {
    if files != [] {
      CopyableSpec(files[1..]);
      assert forall f :: f in files <==> f == files[0] || f in files[1..];
    }
  }

  /** The destination of each copied file of one walk entry. */
  function Targets(root: Path, names: seq<string>): seq<Path> {
    if names == [] then [] else [Join(root, [names[0]])] + Targets(root, names[1..])
  }

  /** `_cpfile` of one name (skipped for `.pyc`): the file comes into being
      and is logged as copied (and made read-only). */
  function CopyFile(st: State, root: Path, name: string, dry: bool): (r: State)
    ensures Grows(st, r) && r.destdirs == st.destdirs
    ensures dry || IsPyc(name) ==> r == st
    ensures !dry && !IsPyc(name) ==>
              && r.fs.paths == st.fs.paths + {Join(root, [name])}
              && r.copied == st.copied + [Join(root, [name])]
  {
    if IsPyc(name) || dry then st
    else
      var target := Join(root, [name]);
      st.(fs := st.fs.(paths := st.fs.paths + {target}), copied := st.copied + [target])
  }

  function CopyFiles(st: State, root: Path, names: seq<string>, dry: bool): (r: State)
    ensures Grows(st, r) && r.destdirs == st.destdirs
    ensures dry ==> r == st
    decreases |names|
  {
    if names == [] then st
    else
      var s1 := CopyFile(st, root, names[0], dry);
      var r := CopyFiles(s1, root, names[1..], dry);
      GrowsTransitive(st, s1, r);
      r
  }

  /** The copy log of a real run gains one target per copyable name, in order. */
  lemma {:induction false} CopyFilesLog(st: State, root: Path, names: seq<string>, dry: bool)
    requires !dry
    ensures CopyFiles(st, root, names, dry).copied == st.copied + Targets(root, Copyable(names))
    decreases |names|
  {
    if names != [] {
      var s1 := CopyFile(st, root, names[0], dry);
      CopyFilesLog(s1, root, names[1..], dry);
      assert s1.copied == st.copied + Targets(root, Copyable([names[0]]));
      TargetsAppend(root, Copyable([names[0]]), Copyable(names[1..]));
      assert Copyable(names) == Copyable([names[0]]) + Copyable(names[1..]) by {
        assert [names[0]][1..] == [];
      }
    }
  }

  lemma {:induction false} TargetsAppend(root: Path, a: seq<string>, b: seq<string>)
    ensures Targets(root, a + b) == Targets(root, a) + Targets(root, b)
    decreases |a|
  {
    if a == [] {
      assert a + b == b;
    } else {
      TargetsAppend(root, a[1..], b);
      assert (a + b)[1..] == a[1..] + b;
    }
  }

  /** `_mkdir` of every sub-directory name under `root`. */
  function MkdirEach(st: State, root: Path, names: seq<string>, dry: bool): (r: State)
    ensures Grows(st, r) && r.copied == st.copied
    ensures dry ==> r == st
    ensures !dry ==> forall i :: 0 <= i < |names| ==> Join(root, [names[i]]) in r.fs.paths
    decreases |names|
  {
    if names == [] then st
    else
      var s1 := Mkdir(st, Join(root, [names[0]]), true, dry);
      var r := MkdirEach(s1, root, names[1..], dry);
      GrowsTransitive(st, s1, r);
      assert forall i :: 1 <= i < |names| ==> names[i] == names[1..][i - 1];
      r
  }

  /** Lines 322-332 for one walk entry: create the destination root, each
      sub-directory, and copy the files. */
  function CopyEntry(st: State, dest: Path, e: WalkEntry, dry: bool): (r: State)
    ensures Grows(st, r)
    ensures dry ==> r == st
  {
    var root := Join(dest, e.subpath);
    var s1 := Mkdir(st, root, true, dry);
    var s2 := MkdirEach(s1, root, e.dirs, dry);
    var r := CopyFiles(s2, root, e.files, dry);
    GrowsTransitive(st, s1, s2);
    GrowsTransitive(st, s2, r);
    r
  }

  /** The copy of a whole egg tree into `dest`, entry by entry. */
  function CopyTree(st: State, dest: Path, walk: seq<WalkEntry>, dry: bool): (r: State)
    ensures Grows(st, r)
    ensures dry ==> r == st
    decreases |walk|
  {
    if walk == [] then st
    else
      var s1 := CopyEntry(st, dest, walk[0], dry);
      var r := CopyTree(s1, dest, walk[1..], dry);
      GrowsTransitive(st, s1, r);
      r
  }

  /** Every file the walk lists, apart from `.pyc` files, under its entry's
      destination root, in walk order. */
  function TreeTargets(dest: Path, walk: seq<WalkEntry>): seq<Path> {
    if walk == [] then []
    else Targets(Join(dest, walk[0].subpath), Copyable(walk[0].files)) + TreeTargets(dest, walk[1..])
  }

  /** The copy log of a real run gains exactly the tree's targets. */
  lemma {:induction false} CopyTreeLog(st: State, dest: Path, walk: seq<WalkEntry>, dry: bool)
    requires !dry
    ensures CopyTree(st, dest, walk, dry).copied == st.copied + TreeTargets(dest, walk)
    decreases |walk|
  {
    if walk != [] {
      var e := walk[0];
      var root := Join(dest, e.subpath);
      var s1 := Mkdir(st, root, true, dry);
      var s2 := MkdirEach(s1, root, e.dirs, dry);
      var s3 := CopyEntry(st, dest, e, dry);
      CopyFilesLog(s2, root, e.files, dry);
      assert s3.copied == st.copied + Targets(root, Copyable(e.files));
      CopyTreeLog(s3, dest, walk[1..], dry);
    }
  }

  /** After a real copy every target of the tree exists. */
  lemma CopyTreeCreates(st: State, dest: Path, walk: seq<WalkEntry>, dry: bool)
    requires !dry
    ensures forall p :: p in TreeTargets(dest, walk) ==> p in CopyTree(st, dest, walk, dry).fs.paths
  {
    var r := CopyTree(st, dest, walk, dry);
    CopyTreeLog(st, dest, walk, dry);
    forall p | p in TreeTargets(dest, walk) ensures p in r.fs.paths {
      var j :| 0 <= j < |TreeTargets(dest, walk)| && TreeTargets(dest, walk)[j] == p;
      assert r.copied[|st.copied| + j] == p;
    }
  }

  /** A path is copied exactly when it is `<dest>/<subpath>/<name>` for a
      listed file `name` of some walk entry that does not end in `.pyc`. */
  lemma {:induction false} TreeTargetsSpec(dest: Path, walk: seq<WalkEntry>)
    ensures forall p :: p in TreeTargets(dest, walk) <==>
              exists i, f :: 0 <= i < |walk| && f in walk[i].files && !IsPyc(f) && p == Join(Join(dest, walk[i].subpath), [f])
    decreases |walk|
  {
    if walk != [] {
      TreeTargetsSpec(dest, walk[1..]);
      var root := Join(dest, walk[0].subpath);
      CopyableSpec(walk[0].files);
      TargetsSpec(root, Copyable(walk[0].files));
      forall p ensures p in TreeTargets(dest, walk) <==>
                exists i, f :: 0 <= i < |walk| && f in walk[i].files && !IsPyc(f) && p == Join(Join(dest, walk[i].subpath), [f])
      {
        if p in TreeTargets(dest, walk[1..]) {
          var i, f :| 0 <= i < |walk[1..]| && f in walk[1..][i].files && !IsPyc(f) && p == Join(Join(dest, walk[1..][i].subpath), [f]);
          assert walk[i + 1] == walk[1..][i];
        }
        if exists i, f :: 0 <= i < |walk| && f in walk[i].files && !IsPyc(f) && p == Join(Join(dest, walk[i].subpath), [f]) {
          var i, f :| 0 <= i < |walk| && f in walk[i].files && !IsPyc(f) && p == Join(Join(dest, walk[i].subpath), [f]);
          if i > 0 {
            assert walk[1..][i - 1] == walk[i];
          }
        }
      }
    }
  }

  lemma {:induction false} TargetsSpec(root: Path, names: seq<string>)
    ensures forall p :: p in Targets(root, names) <==> exists f :: f in names && p == Join(root, [f])
    decreases |names|
  {
    if names != [] {
      TargetsSpec(root, names[1..]);
      assert forall f :: f in names <==> f == names[0] || f in names[1..];
    }
  }

  /** The lock-down order: `reversed(destdirs)`. */
  function Reversed(s: seq<Path>): (r: seq<Path>)
    ensures |r| == |s|
    ensures forall i :: 0 <= i < |s| ==> r[i] == s[|s| - 1 - i]
  {
    if s == [] then [] else Reversed(s[1..]) + [s[0]]
  }

  /** Lines 334-335: every directory recorded so far, by any egg of this run,
      is locked again, the most recently created first. */
  function LockDown(st: State): (r: State)
    ensures r.fs == st.fs && r.destdirs == st.destdirs && r.copied == st.copied
    ensures IsPrefix(st.locked, r.locked)
    ensures |r.locked| == |st.locked| + |st.destdirs|
    ensures forall i :: |st.locked| <= i < |r.locked| ==> r.locked[i] == st.destdirs[|r.locked| - 1 - i]
    ensures forall p :: p in r.locked[|st.locked|..] <==> p in st.destdirs
  {
    ReversedSameElements(st.destdirs);
    var r := st.(locked := st.locked + Reversed(st.destdirs));
    assert r.locked[|st.locked|..] == Reversed(st.destdirs);
    r
  }

  /** Reversing keeps the same elements. */
  lemma ReversedSameElements(s: seq<Path>)
    ensures forall p :: p in Reversed(s) <==> p in s
  {
    forall p | p in s ensures p in Reversed(s) {
      var i :| 0 <= i < |s| && s[i] == p;
      assert Reversed(s)[|s| - 1 - i] == p;
    }
  }
}

=== FILE: metadata.dfy ===
/** The PKG-INFO line filter: header-style `Key: value` lines become a
    key/value map; every other line is ignored. */
module Metadata {
  import opened Results
  import opened Text

  predicate IsUpper(c: char) {
    'A' <= c <= 'Z'
  }

  /** The character class `[a-z_-]`. */
  predicate InKeyTail(c: char) {
    'a' <= c <= 'z' || c == '_' || c == '-'
  }

  /** The regular expression `^[A-Z][a-z_-]+:` matched with its colon at `k`. */
  predicate KeyColonAt(line: string, k: int) {
    && 2 <= k < |line|
    && line[k] == ':'
    && IsUpper(line[0])
    && forall j :: 1 <= j < k ==> InKeyTail(line[j])
  }

  /** The regular expression `^[A-Z][a-z_-]+:`, stated declaratively. */
  ghost predicate KeyPattern(line: string) {
    exists k :: KeyColonAt(line, k)
  }

  /** First index at or after `i` whose character is outside `[a-z_-]`. */
  function TailEnd(line: string, i: nat): (e: nat)
    requires i <= |line|
    ensures i <= e <= |line|
    ensures forall j :: i <= j < e ==> InKeyTail(line[j])
    ensures e == |line| || !InKeyTail(line[e])
    decreases |line| - i
  {
    if i < |line| && InKeyTail(line[i]) then TailEnd(line, i + 1) else i
  }

  /** The filter as the scanner computes it: an upper-case letter, the longest
      run of key characters (at least one), then a colon. */
  predicate MatchesKey(line: string) {
    && |line| > 0
    && IsUpper(line[0])
    && var e := TailEnd(line, 1);
       2 <= e < |line| && line[e] == ':'
  }

  /** The scanner accepts exactly the lines the regular expression matches,
      and the colon it finds is the only possible one. */
  lemma MatchesKeyIffPattern(line: string)
    ensures MatchesKey(line) <==> KeyPattern(line)
    ensures MatchesKey(line) ==> forall k :: KeyColonAt(line, k) <==> k == TailEnd(line, 1)
  {
    if |line| > 0 {
      var e := TailEnd(line, 1);
      forall k | KeyColonAt(line, k) ensures k == e {
      }
      if MatchesKey(line) {
        assert KeyColonAt(line, e);
      }
    }
  }

  /** Index of the first `:` in `line`, or `|line|` when there is none: the
      split point of `line.split(':', 1)`. */
  function FirstColon(line: string): (i: nat)
    ensures i <= |line|
    ensures i == |line| || line[i] == ':'
    ensures forall j :: 0 <= j < i ==> line[j] != ':'
  {
    if line == [] then 0
    else if line[0] == ':' then 0
    else 1 + FirstColon(line[1..])
  }

  /** `toks[0].strip()`. */
  function KeyOf(line: string): string {
    Strip(line[..FirstColon(line)], Whitespace)
  }

  /** `toks[1].strip()`: everything after the first colon, so later colons
      stay in the value. */
  function ValueOf(line: string): string {
    var c := FirstColon(line);
    if c < |line| then Strip(line[c + 1..], Whitespace) else ""
  }

  /** On a matching line the key is exactly the text before the colon the
      pattern found, and the value is the stripped rest of the line. */
  lemma KeyOfMatchingLine(line: string)
    requires MatchesKey(line)
    ensures FirstColon(line) == TailEnd(line, 1)
    ensures KeyOf(line) == line[..TailEnd(line, 1)]
    ensures ValueOf(line) == Strip(line[TailEnd(line, 1) + 1..], Whitespace)
  {
    var e := TailEnd(line, 1);
    forall j | 0 <= j < e ensures line[j] != ':' {
      if j > 0 {
        assert InKeyTail(line[j]);
      }
    }
    FirstColonAt(line, e);
    var key := line[..e];
    assert key[0] == line[0] && key[|key| - 1] == line[e - 1];
    assert InKeyTail(line[e - 1]);
    StripKeepsClean(key, Whitespace);
  }

  /** The first colon is the one with no colon before it. */
  lemma FirstColonAt(line: string, e: nat)
    requires e < |line| && line[e] == ':'
    requires forall j :: 0 <= j < e ==> line[j] != ':'
    ensures FirstColon(line) == e
  {
  }

  /** What one line contributes: its key and value when the filter keeps it. */
  function ParseLine(line: string): Option<(string, string)> {
    if MatchesKey(line) then Some((KeyOf(line), ValueOf(line))) else None
  }

  /** `line` is a line that `parse` keeps, with key `k`. */
  predicate Defines<T>(parse: T -> Option<(string, string)>, line: T, k: string) {
    parse(line).Some? && parse(line).value.0 == k
  }

  /** `lines[i]` is the last line that `parse` keeps with key `k`. */
  predicate LastDefinition<T>(parse: T -> Option<(string, string)>, lines: seq<T>, i: int, k: string) {
    && 0 <= i < |lines|
    && Defines(parse, lines[i], k)
    && forall j :: i < j < |lines| ==> !Defines(parse, lines[j], k)
  }

  /** Left-to-right assignment `meta[k] = v` of every kept line. */
  function Assign<T>(parse: T -> Option<(string, string)>, lines: seq<T>): map<string, string> {
    if lines == [] then map[]
    else
      var m := Assign(parse, lines[..|lines| - 1]);
      var kv := parse(lines[|lines| - 1]);
      if kv.Some? then m[kv.value.0 := kv.value.1] else m
  }

  /** The keys assigned are exactly those of the kept lines. */
  lemma {:induction false} AssignKeys<T>(parse: T -> Option<(string, string)>, lines: seq<T>)
    ensures forall k :: k in Assign(parse, lines) <==> exists i :: 0 <= i < |lines| && Defines(parse, lines[i], k)
    decreases |lines|
  {
    if lines != [] {
      var n := |lines| - 1;
      var init := lines[..n];
      AssignKeys(parse, init);
      var m := Assign(parse, init);
      forall k ensures k in Assign(parse, lines) <==> exists i :: 0 <= i < |lines| && Defines(parse, lines[i], k) {
        if k in m {
          var i :| 0 <= i < n && Defines(parse, init[i], k);
          assert lines[i] == init[i];
        }
        if exists i :: 0 <= i < |lines| && Defines(parse, lines[i], k) {
          var i :| 0 <= i < |lines| && Defines(parse, lines[i], k);
          if i < n {
            assert lines[i] == init[i];
          }
        }
      }
    }
  }

  /** Each key carries the value of its LAST kept line (last-wins). */
  lemma {:induction false} AssignLastWins<T>(parse: T -> Option<(string, string)>, lines: seq<T>)
    ensures forall k :: k in Assign(parse, lines) ==>
              exists i :: LastDefinition(parse, lines, i, k) && Assign(parse, lines)[k] == parse(lines[i]).value.1
    decreases |lines|
  {
    if lines != [] {
      var n := |lines| - 1;
      var init := lines[..n];
      AssignLastWins(parse, init);
      var m := Assign(parse, init);
      forall k | k in Assign(parse, lines)
        ensures exists i :: LastDefinition(parse, lines, i, k) && Assign(parse, lines)[k] == parse(lines[i]).value.1
      {
        if Defines(parse, lines[n], k) {
          assert LastDefinition(parse, lines, n, k);
        } else {
          var i :| LastDefinition(parse, init, i, k) && m[k] == parse(init[i]).value.1;
          assert forall j :: i < j < n ==> lines[j] == init[j];
          assert LastDefinition(parse, lines, i, k);
        }
      }
    }
  }

  /** The loop of lines 100-105 over already split lines. */
  function Extract(lines: seq<string>): map<string, string> {
    Assign(ParseLine, lines)
  }

  /** The extracted keys are exactly those of lines matching the key pattern,
      and each carries the stripped value of its LAST such line: a later
      duplicate overwrites an earlier one. */
  lemma ExtractLastWins(lines: seq<string>)
    ensures forall k :: k in Extract(lines) <==>
              exists i :: 0 <= i < |lines| && MatchesKey(lines[i]) && KeyOf(lines[i]) == k
    ensures forall k :: k in Extract(lines) ==>
              exists i :: LastDefinition(ParseLine, lines, i, k) && MatchesKey(lines[i]) && Extract(lines)[k] == ValueOf(lines[i])
  {
    AssignKeys(ParseLine, lines);
    AssignLastWins(ParseLine, lines);
    forall k ensures k in Extract(lines) <==>
              exists i :: 0 <= i < |lines| && MatchesKey(lines[i]) && KeyOf(lines[i]) == k
    {
      if exists i :: 0 <= i < |lines| && MatchesKey(lines[i]) && KeyOf(lines[i]) == k {
        var i :| 0 <= i < |lines| && MatchesKey(lines[i]) && KeyOf(lines[i]) == k;
        assert Defines(ParseLine, lines[i], k);
      }
    }
  }

  /** The sections `split_sections` yields, as one list of lines in order. */
  function Flatten(sections: seq<seq<string>>): seq<string> {
    if sections == [] then [] else sections[0] + Flatten(sections[1..])
  }

  /** `_convert_metadata`: an egg without PKG-INFO gives an empty map. */
  function ConvertMetadata(pkgInfo: Option<seq<seq<string>>>): map<string, string> {
    match pkgInfo
    case None => map[]
    case Some(sections) => Extract(Flatten(sections))
  }

  /** An egg without PKG-INFO has no metadata; otherwise the keys are those
      of the matching lines of all sections, in order, and each holds the
      value of its last such line. */
  lemma ConvertMetadataSpec(pkgInfo: Option<seq<seq<string>>>)
    ensures pkgInfo.None? ==> ConvertMetadata(pkgInfo) == map[]
    ensures pkgInfo.Some? ==>
              var lines, m := Flatten(pkgInfo.value), ConvertMetadata(pkgInfo);
              && (forall k :: k in m <==> exists i :: 0 <= i < |lines| && MatchesKey(lines[i]) && KeyOf(lines[i]) == k)
              && (forall k :: k in m ==> exists i :: LastDefinition(ParseLine, lines, i, k) && m[k] == ValueOf(lines[i]))
  {
    if pkgInfo.Some? {
      ExtractLastWins(Flatten(pkgInfo.value));
    }
  }

  /** A line `Key:rest` whose key has the pattern's shape is kept, with that
      key and the stripped rest as its value, colons in `rest` included. */
  lemma KeptLine(key: string, rest: string)
    requires |key| >= 2 && IsUpper(key[0])
    requires forall j :: 1 <= j < |key| ==> InKeyTail(key[j])
    ensures MatchesKey(key + ":" + rest)
    ensures KeyOf(key + ":" + rest) == key
    ensures ValueOf(key + ":" + rest) == Strip(rest, Whitespace)
  {
    var line := key + ":" + rest;
    assert forall j :: 1 <= j < |key| ==> line[j] == key[j];
    TailEndStops(line, 1, |key|);
    KeyOfMatchingLine(line);
    assert line[..|key|] == key;
    assert line[|key| + 1..] == rest;
  }

  /** Every `Home-page:` line is kept under the key `Home-page`. */
  lemma HomePageIsKept(rest: string)
    ensures MatchesKey("Home-page:" + rest)
    ensures KeyOf("Home-page:" + rest) == "Home-page"
    ensures ValueOf("Home-page:" + rest) == Strip(rest, Whitespace)
  {
    var key := "Home-page";
    assert forall j :: 1 <= j < |key| ==> InKeyTail(key[j]);
    KeptLine(key, rest);
    assert key + ":" == "Home-page:";
  }

  /** `Metadata-Version:` does not qualify: its second capital is outside
      `[a-z_-]`. Nor does a line without a colon. The filter would also drop
      an indented line, but the lines it is given are already stripped. */
  lemma OtherLinesAreDropped()
    ensures !MatchesKey("Metadata-Version: 1.0")
    ensures !MatchesKey("Summary")
    ensures !MatchesKey(" Summary: x")
  {
    TailEndStops("Metadata-Version: 1.0", 1, 9);
    TailEndStops("Summary", 1, 7);
  }

  /** `TailEnd` stops at the first character outside the class. */
  lemma TailEndStops(line: string, i: nat, e: nat)
    requires i <= e <= |line|
    requires forall j :: i <= j < e ==> InKeyTail(line[j])
    requires e == |line| || !InKeyTail(line[e])
    ensures TailEnd(line, i) == e
  {
    var t := TailEnd(line, i);
  }
}

=== FILE: names.dfy ===
/** The package-name mapper: one optional lookup in the remapping table, then
    every `-` becomes `_` (Rez package names may not contain `-`). */
module Names {

  /** Python's `name.replace('-', '_')`. */
  function Underscored(s: string): (r: string)
    ensures |r| == |s|
    ensures forall i :: 0 <= i < |s| ==> r[i] == (if s[i] == '-' then '_' else s[i])
  {
    if s == [] then [] else [if s[0] == '-' then '_' else s[0]] + Underscored(s[1..])
  }

  /** `_convert_pkg_name`. A non-empty entry for `name` is taken and converted
      against an EMPTY table, so the table is consulted at most once. */
  function ConvertPkgName(name: string, table: map<string, string>): string
    decreases |table|
  {
    var mapped := if name in table then table[name] else "";
    if mapped != "" then Underscored(ConvertPkgName(mapped, map[])) else Underscored(name)
  }

  /** The name the table selects: the mapped value when it is non-empty,
      otherwise the name itself. */
  function Chosen(name: string, table: map<string, string>): string {
    if name in table && table[name] != "" then table[name] else name
  }

  /** The result is the chosen name with `-` replaced by `_`, character for
      character: no `-` survives and case and every other character is kept. */
  lemma ConvertPkgNameSpec(name: string, table: map<string, string>)
    ensures var r, c := ConvertPkgName(name, table), Chosen(name, table);
            && |r| == |c|
            && (forall i :: 0 <= i < |r| ==> r[i] != '-')
            && (forall i :: 0 <= i < |r| ==> c[i] != '-' ==> r[i] == c[i])
            && (forall i :: 0 <= i < |r| ==> c[i] == '-' ==> r[i] == '_')
  {
    UnderscoredTwice(Chosen(name, table));
  }

  lemma UnderscoredTwice(s: string)
    ensures Underscored(Underscored(s)) == Underscored(s)
  {
  }

  /** No chaining: even when the mapped name is itself a key of the table,
      only the first mapping is applied. */
  lemma ConvertPkgNameOneStep(name: string, table: map<string, string>)
    requires name in table && table[name] != ""
    ensures ConvertPkgName(name, table) == Underscored(table[name])
  {
    UnderscoredTwice(table[name]);
  }

  /** An unmapped name, or one mapped to an empty (falsy) value, is kept. */
  lemma ConvertPkgNameUnmapped(name: string, table: map<string, string>)
    requires name !in table || table[name] == ""
    ensures ConvertPkgName(name, table) == Underscored(name)
  {
  }

  /** A worked example: `My-Pkg` becomes `My_Pkg`, case kept. */
  lemma ConvertPkgNameExample()
    ensures ConvertPkgName("My-Pkg", map[]) == "My_Pkg"
    ensures ConvertPkgName("a", map["a" := "b-c", "b-c" := "d"]) == "b_c"
  {
    assert "My-Pkg"[1..] == "y-Pkg";
    assert "y-Pkg"[1..] == "-Pkg";
    assert "-Pkg"[1..] == "Pkg";
    assert "Pkg"[1..] == "kg";
    assert "kg"[1..] == "g";
    ConvertPkgNameOneStep("a", map["a" := "b-c", "b-c" := "d"]);
    assert "b-c"[1..] == "-c";
    assert "-c"[1..] == "c";
  }
}

=== FILE: requirements.dfy ===
/** The requirement translator: one egg requirement (a project name and its
    ordered `(operator, version)` specs) becomes a list of Rez request strings. */
module Requirements {
  import opened Results
  import opened Version
  import opened Names

  /** One `(op, ver)` pair of a requirement; the operator is free text so that
      an operator outside the table can be represented. */
  datatype Spec = Spec(op: string, version: string)

  /** A requirement as `pkg_resources` reports it. */
  datatype Requirement = Requirement(projectName: string, specs: seq<Spec>)

  /** The operators the translation table covers. */
  predicate Supported(op: string) {
    op in {"<", "<=", "==", ">=", ">", "!="}
  }

  /** The Rez strings for one spec; `>` needs two of them. */
  function TranslateSpec(pkg: string, s: Spec): Result<seq<string>> {
    var v := ConvertVersion(s.version);
    if s.op == "<" then Ok([pkg + "-0+<" + v])
    else if s.op == "<=" then Ok([pkg + "-0+<" + v + "|" + v])
    else if s.op == "==" then Ok([pkg + "-" + v])
    else if s.op == ">=" then Ok([pkg + "-" + v + "+"])
    else if s.op == ">" then Ok([pkg + "-" + v + "+", "!" + pkg + "-" + v])
    else if s.op == "!=" then Ok(["!" + pkg + "-" + v])
    else Err(UnknownOperator(s.op))
  }

  /** Number of specs whose operator is `>`. */
  function CountGreater(specs: seq<Spec>): nat {
    if specs == [] then 0
    else (if specs[0].op == ">" then 1 else 0) + CountGreater(specs[1..])
  }

  /** Index of the first spec with an operator outside the table, if any. */
  predicate FirstUnsupported(specs: seq<Spec>, i: int) {
    && 0 <= i < |specs|
    && !Supported(specs[i].op)
    && forall j :: 0 <= j < i ==> Supported(specs[j].op)
  }

  /** Runs `f` over `xs` in order, concatenating the successes and stopping
      at the first failure: the shape of the loop of lines 64-88. */
  function ConcatAll<T>(f: T -> Result<seq<string>>, xs: seq<T>): Result<seq<string>> {
    if xs == [] then Ok([])
    else
      var head := f(xs[0]);
      if head.Err? then head
      else
        var tail := ConcatAll(f, xs[1..]);
        if tail.Err? then tail else Ok(head.value + tail.value)
  }

  /** Concatenating over `a + b` is concatenating over `a`, then over `b`. */
  lemma {:induction false} ConcatAllAppend<T>(f: T -> Result<seq<string>>, a: seq<T>, b: seq<T>)
    requires ConcatAll(f, a).Ok? && ConcatAll(f, b).Ok?
    ensures ConcatAll(f, a + b) == Ok(ConcatAll(f, a).value + ConcatAll(f, b).value)
    decreases |a|
  {
    if a == [] {
      assert a + b == b;
      assert [] + ConcatAll(f, b).value == ConcatAll(f, b).value;
    } else {
      var h := f(a[0]).value;
      var ta, tb := ConcatAll(f, a[1..]).value, ConcatAll(f, b).value;
      ConcatAllAppend(f, a[1..], b);
      assert (a + b)[0] == a[0];
      assert (a + b)[1..] == a[1..] + b;
      assert h + (ta + tb) == (h + ta) + tb;
    }
  }

  /** The concatenation succeeds exactly when every element succeeds. */
  lemma {:induction false} ConcatAllOk<T>(f: T -> Result<seq<string>>, xs: seq<T>)
    ensures ConcatAll(f, xs).Ok? <==> forall i :: 0 <= i < |xs| ==> f(xs[i]).Ok?
    decreases |xs|
  {
    if xs != [] {
      ConcatAllOk(f, xs[1..]);
      assert forall i :: 1 <= i < |xs| ==> xs[i] == xs[1..][i - 1];
    }
  }

  /** The translation loop over one requirement's specs. */
  function TranslateSpecs(pkg: string, specs: seq<Spec>): Result<seq<string>> {
    ConcatAll((s: Spec) => TranslateSpec(pkg, s), specs)
  }

  /** A single spec succeeds exactly for a supported operator, with one string,
      or two for `>`. */
  lemma TranslateSpecResult(pkg: string, s: Spec)
    ensures var r := TranslateSpec(pkg, s);
            && (r.Ok? <==> Supported(s.op))
            && (r.Ok? ==> |r.value| == if s.op == ">" then 2 else 1)
            && (r.Err? ==> r.error == UnknownOperator(s.op))
  {
  }

  /** The translated list has one string per spec plus one more per `>` spec,
      and the loop fails exactly when some operator is unknown, naming the
      first such operator. */
  lemma {:induction false} TranslateSpecsShape(pkg: string, specs: seq<Spec>)
    ensures var r := TranslateSpecs(pkg, specs);
            && (r.Ok? <==> forall i :: 0 <= i < |specs| ==> Supported(specs[i].op))
            && (r.Ok? ==> |r.value| == |specs| + CountGreater(specs))
            && (r.Err? ==> exists i :: FirstUnsupported(specs, i) && r.error == UnknownOperator(specs[i].op))
    decreases |specs|
  {
    if specs != [] {
      TranslateSpecsShape(pkg, specs[1..]);
      TranslateSpecResult(pkg, specs[0]);
      var head := TranslateSpec(pkg, specs[0]);
      var tail := TranslateSpecs(pkg, specs[1..]);
      assert forall i :: 1 <= i < |specs| ==> specs[i] == specs[1..][i - 1];
      if head.Err? {
        assert FirstUnsupported(specs, 0);
      } else if tail.Err? {
        var i :| FirstUnsupported(specs[1..], i) && tail.error == UnknownOperator(specs[1..][i].op);
        assert FirstUnsupported(specs, i + 1);
      }
    }
  }

  /** `_convert_requirement`. A requirement translates to its bare (mapped)
      name exactly when it has no specs; otherwise the output has #specs plus
      #`>` strings, and any operator outside the table fails the requirement,
      naming the first such operator. */
  function ConvertRequirement(req: Requirement, table: map<string, string>): (r: Result<seq<string>>)
    ensures req.specs == [] ==> r == Ok([ConvertPkgName(req.projectName, table)])
    ensures req.specs != [] ==> r == TranslateSpecs(ConvertPkgName(req.projectName, table), req.specs)
    ensures r.Ok? <==> forall i :: 0 <= i < |req.specs| ==> Supported(req.specs[i].op)
    ensures req.specs != [] && r.Ok? ==> |r.value| == |req.specs| + CountGreater(req.specs)
    ensures r.Err? ==> exists i :: FirstUnsupported(req.specs, i) && r.error == UnknownOperator(req.specs[i].op)
  {
    var pkg := ConvertPkgName(req.projectName, table);
    TranslateSpecsShape(pkg, req.specs);
    if req.specs == [] then Ok([pkg]) else TranslateSpecs(pkg, req.specs)
  }

  /** The translation of a concatenation is the concatenation of the
      translations: specs are handled independently and in order. */
  lemma TranslateSpecsAppend(pkg: string, a: seq<Spec>, b: seq<Spec>)
    requires TranslateSpecs(pkg, a).Ok? && TranslateSpecs(pkg, b).Ok?
    ensures TranslateSpecs(pkg, a + b) == Ok(TranslateSpecs(pkg, a).value + TranslateSpecs(pkg, b).value)
  {
    ConcatAllAppend((s: Spec) => TranslateSpec(pkg, s), a, b);
  }

  /** The operator table, one spec at a time (N = name, E = encoded version). */
  lemma TranslateOneSpec(name: string, table: map<string, string>, op: string, ver: string)
    ensures var n, e := ConvertPkgName(name, table), ConvertVersion(ver);
            var r := ConvertRequirement(Requirement(name, [Spec(op, ver)]), table);
            && (op == "<" ==> r == Ok([n + "-0+<" + e]))
            && (op == "<=" ==> r == Ok([n + "-0+<" + e + "|" + e]))
            && (op == "==" ==> r == Ok([n + "-" + e]))
            && (op == ">=" ==> r == Ok([n + "-" + e + "+"]))
            && (op == ">" ==> r == Ok([n + "-" + e + "+", "!" + n + "-" + e]))
            && (op == "!=" ==> r == Ok(["!" + n + "-" + e]))
            && (!Supported(op) ==> r == Err(UnknownOperator(op)))
  {
    var n := ConvertPkgName(name, table);
    var specs := [Spec(op, ver)];
    assert specs[1..] == [];
    var h := TranslateSpec(n, specs[0]);
    var f := (s: Spec) => TranslateSpec(n, s);
    assert ConcatAll(f, specs[1..]) == Ok([]);
    assert f(specs[0]) == h;
    if h.Ok? {
      assert TranslateSpecs(n, specs) == Ok(h.value + []);
      assert h.value + [] == h.value;
    }
  }
}

=== FILE: results.dfy ===
/** Failure-compatible wrappers shared by every stage of the egg installer. */
module Results {

  datatype Option<+T> = None | Some(value: T)

  /** The conditions that end the installer's whole run. */
  datatype Error =
    | UnknownOperator(op: string)        // a requirement operator outside the translation table
    | UnknownPlatform(platform: string)  // a `Platform` with no remapping, not ignored
    | MalformedManifest(key: string)     // an existing manifest field that cannot be appended to
    | NotAPathComponent                  // a variant token that is not a string, passed to `os.path.join`

  /** Either a value or the error that aborts the run; usable with `:-`. */
  datatype Result<+T> = Ok(value: T) | Err(error: Error) {

    predicate IsFailure() {
      Err?
    }

    function PropagateFailure<U>(): Result<U>
      requires Err?
    {
      Err(error)
    }

    function Extract(): T
      requires Ok?
    {
      value
    }
  }
}

=== FILE: text.dfy ===
/** The few Python 2 byte-string operations the installer relies on. */
module Text {

  /** The characters Python 2's `str.strip()` removes: the six ASCII whitespace bytes. */
  const Whitespace: set<char> := {' ', '\t', '\n', '\r', '\U{0B}', '\U{0C}'}

  /** The characters `strip('.')` removes. */
  const Dots: set<char> := {'.'}

  /** Number of leading characters of `s` that belong to `cs`. */
  function LeadingCount(s: string, cs: set<char>): (n: nat)
    ensures n <= |s|
    ensures forall k :: 0 <= k < n ==> s[k] in cs
    ensures n == |s| || s[n] !in cs
  {
    if |s| > 0 && s[0] in cs then 1 + LeadingCount(s[1..], cs) else 0
  }

  /** Number of trailing characters of `s` that belong to `cs`. */
  function TrailingCount(s: string, cs: set<char>): (n: nat)
    ensures n <= |s|
    ensures forall k :: |s| - n <= k < |s| ==> s[k] in cs
    ensures n == |s| || s[|s| - 1 - n] !in cs
  {
    if |s| > 0 && s[|s| - 1] in cs then 1 + TrailingCount(s[..|s| - 1], cs) else 0
  }

  /** Python's `s.strip(cs)`. */
  function Strip(s: string, cs: set<char>): string {
    var t := s[LeadingCount(s, cs)..];
    t[..|t| - TrailingCount(t, cs)]
  }

  /** What `strip` leaves has no end character in `cs`, is no longer than
      `s`, holds only characters that occur in `s`, is empty when all of `s`
      is in `cs`, and is `s` itself when neither end of `s` is in `cs`.
      That it is a slice of `s` is `StripIsSlice`. */
  lemma StripRemovesEdges(s: string, cs: set<char>)
    ensures var r := Strip(s, cs);
            && |r| <= |s|
            && (r == [] || (r[0] !in cs && r[|r| - 1] !in cs))
            && (forall i :: 0 <= i < |r| ==> r[i] in s)
            && ((forall k :: 0 <= k < |s| ==> s[k] in cs) ==> r == [])
            && (s == [] || (s[0] !in cs && s[|s| - 1] !in cs) ==> r == s)
  {
    var a := LeadingCount(s, cs);
    var t := s[a..];
    var b := TrailingCount(t, cs);
    var r := t[..|t| - b];
    assert forall i :: 0 <= i < |r| ==> r[i] == s[a + i];
  }

  /** A string with neither end in `cs` is left as it is. */
  lemma StripKeepsClean(s: string, cs: set<char>)
    requires s == [] || (s[0] !in cs && s[|s| - 1] !in cs)
    ensures Strip(s, cs) == s
  {
    assert LeadingCount(s, cs) == 0;
    assert s[0..] == s;
    assert TrailingCount(s, cs) == 0;
  }

  /** `r` is `s` with `a` characters cut from the front and `b` from the back,
      every one of them in `cs`. */
  ghost predicate CutEdges(s: string, cs: set<char>, a: nat, b: nat, r: string) {
    && a + b <= |s|
    && r == s[a..|s| - b]
    && (forall k :: 0 <= k < a ==> s[k] in cs)
    && (forall k :: |s| - b <= k < |s| ==> s[k] in cs)
  }

  /** What `strip` returns is a slice of `s`: it only cuts characters of `cs`
      from the two ends, and (with `StripRemovesEdges`) it cuts all of them. */
  lemma StripIsSlice(s: string, cs: set<char>)
    ensures exists a: nat, b: nat :: CutEdges(s, cs, a, b, Strip(s, cs))
  {
    var a := LeadingCount(s, cs);
    var t := s[a..];
    var b := TrailingCount(t, cs);
    assert t[..|t| - b] == s[a..|s| - b];
    assert forall k :: |s| - b <= k < |s| ==> s[k] == t[k - a];
    assert CutEdges(s, cs, a, b, Strip(s, cs));
  }

  /** True when no two adjacent characters of `s` are both `.`. */
  predicate NoDoubleDot(s: string) {
    forall i :: 0 <= i < |s| - 1 ==> !(s[i] == '.' && s[i + 1] == '.')
  }

  /** `s` with every `.` removed: what a dot-only rewrite must leave intact. */
  function NonDots(s: string): string {
    if s == [] then []
    else (if s[0] == '.' then [] else [s[0]]) + NonDots(s[1..])
  }

  lemma {:induction false} NonDotsAppend(a: string, b: string)
    ensures NonDots(a + b) == NonDots(a) + NonDots(b)
    decreases |a|
  {
    if a == [] {
      assert a + b == b;
    } else {
      assert (a + b)[1..] == a[1..] + b;
      NonDotsAppend(a[1..], b);
    }
  }

  lemma {:induction false} NonDotsOfDots(s: string)
    requires forall k :: 0 <= k < |s| ==> s[k] == '.'
    ensures NonDots(s) == []
    decreases |s|
  {
    if s != [] {
      NonDotsOfDots(s[1..]);
    }
  }

  lemma NonDotsBetweenDots(pre: string, r: string, post: string)
    requires forall k :: 0 <= k < |pre| ==> pre[k] == '.'
    requires forall k :: 0 <= k < |post| ==> post[k] == '.'
    ensures NonDots(pre + r + post) == NonDots(r)
  {
    NonDotsOfDots(pre);
    NonDotsOfDots(post);
    NonDotsAppend(pre + r, post);
    NonDotsAppend(pre, r);
    assert NonDots(r) + [] == NonDots(r);
  }

  /** Stripping dots only ever removes dots. */
  lemma StripDotsKeepsNonDots(s: string)
    ensures NonDots(Strip(s, Dots)) == NonDots(s)
  {
    var a := LeadingCount(s, Dots);
    var t := s[a..];
    var b := TrailingCount(t, Dots);
    var r := t[..|t| - b];
    assert Strip(s, Dots) == r;
    var pre, post := s[..a], t[|t| - b..];
    assert s == pre + r + post;
    assert forall k :: 0 <= k < |pre| ==> pre[k] == '.' by {
      forall k | 0 <= k < |pre| ensures pre[k] == '.' {
        assert pre[k] == s[k] && s[k] in Dots;
      }
    }
    assert forall k :: 0 <= k < |post| ==> post[k] == '.' by {
      forall k | 0 <= k < |post| ensures post[k] == '.' {
        assert post[k] == t[|t| - b + k] && t[|t| - b + k] in Dots;
      }
    }
    NonDotsBetweenDots(pre, r, post);
  }

  /** Python's `s.replace("..", ".")`: ONE left-to-right pass that rewrites
      non-overlapping pairs, so a run of four dots becomes two, not one. */
  function ReplaceDoubleDots(s: string): string {
    if |s| < 2 then s
    else if s[0] == '.' && s[1] == '.' then "." + ReplaceDoubleDots(s[2..])
    else [s[0]] + ReplaceDoubleDots(s[1..])
  }

  /** The pass only deletes dots: it never grows the string, introduces no new
      character, keeps every other character in order, and leaves a string
      without `..` alone. */
  lemma ReplaceDoubleDotsOnlyDeletesDots(s: string)
    ensures |ReplaceDoubleDots(s)| <= |s|
    ensures forall i :: 0 <= i < |ReplaceDoubleDots(s)| ==> ReplaceDoubleDots(s)[i] in s
    ensures NonDots(ReplaceDoubleDots(s)) == NonDots(s)
    ensures NoDoubleDot(s) ==> ReplaceDoubleDots(s) == s
  {
    ReplaceShrinks(s);
    ReplaceKeepsNonDots(s);
    if NoDoubleDot(s) {
      ReplaceWithoutPairs(s);
    }
  }

  lemma {:induction false} ReplaceShrinks(s: string)
    ensures |ReplaceDoubleDots(s)| <= |s|
    ensures forall i :: 0 <= i < |ReplaceDoubleDots(s)| ==> ReplaceDoubleDots(s)[i] in s
    decreases |s|
  {
    if |s| < 2 {
    } else if s[0] == '.' && s[1] == '.' {
      var rest := ReplaceDoubleDots(s[2..]);
      ReplaceShrinks(s[2..]);
      assert ("." + rest)[1..] == rest;
      assert forall i :: 0 <= i < |rest| ==> rest[i] in s[2..] ==> rest[i] in s;
    } else {
      var rest := ReplaceDoubleDots(s[1..]);
      ReplaceShrinks(s[1..]);
      assert ([s[0]] + rest)[1..] == rest;
      assert forall i :: 0 <= i < |rest| ==> rest[i] in s[1..] ==> rest[i] in s;
    }
  }

  lemma {:induction false} ReplaceKeepsNonDots(s: string)
    ensures NonDots(ReplaceDoubleDots(s)) == NonDots(s)
    decreases |s|
  {
    if |s| < 2 {
    } else if s[0] == '.' && s[1] == '.' {
      var rest := ReplaceDoubleDots(s[2..]);
      ReplaceKeepsNonDots(s[2..]);
      assert NonDots(s) == NonDots(s[1..]) == NonDots(s[1..][1..]);
      assert s[1..][1..] == s[2..];
      assert ("." + rest)[1..] == rest;
    } else {
      var rest := ReplaceDoubleDots(s[1..]);
      ReplaceKeepsNonDots(s[1..]);
      assert ([s[0]] + rest)[1..] == rest;
    }
  }

  lemma {:induction false} ReplaceWithoutPairs(s: string)
    requires NoDoubleDot(s)
    ensures ReplaceDoubleDots(s) == s
    decreases |s|
  {
    if |s| >= 2 {
      assert !(s[0] == '.' && s[1] == '.');
      assert NoDoubleDot(s[1..]) by {
        forall i | 0 <= i < |s[1..]| - 1
          ensures !(s[1..][i] == '.' && s[1..][i + 1] == '.')
        {
          assert s[1..][i] == s[i + 1] && s[1..][i + 1] == s[i + 2];
        }
      }
      ReplaceWithoutPairs(s[1..]);
      assert s == [s[0]] + s[1..];
    }
  }

  /** A string holding `..` comes out strictly shorter. */
  lemma {:induction false} ReplaceShrinksStrictly(s: string)
    requires !NoDoubleDot(s)
    ensures |ReplaceDoubleDots(s)| < |s|
    decreases |s|
  {
    var i :| 0 <= i < |s| - 1 && s[i] == '.' && s[i + 1] == '.';
    if s[0] == '.' && s[1] == '.' {
      ReplaceShrinks(s[2..]);
    } else {
      assert s[1..][i - 1] == s[i] && s[1..][i] == s[i + 1];
      ReplaceShrinksStrictly(s[1..]);
    }
  }

  /** The pass copies a dot-free prefix and continues after it. */
  lemma {:induction false} ReplaceAfterDotFree(d: string, s: string)
    requires forall i :: 0 <= i < |d| ==> d[i] != '.'
    ensures ReplaceDoubleDots(d + s) == d + ReplaceDoubleDots(s)
    decreases |d|
  {
    if d == [] {
      assert d + s == s;
    } else {
      var t := d[1..] + s;
      ReplaceAfterDotFree(d[1..], s);
      ReplaceKeepsFirst(d[0], t);
      assert d + s == [d[0]] + t;
      assert [d[0]] + (d[1..] + ReplaceDoubleDots(s)) == d + ReplaceDoubleDots(s);
    }
  }

  lemma ReplaceKeepsFirst(c: char, t: string)
    requires c != '.'
    ensures ReplaceDoubleDots([c] + t) == [c] + ReplaceDoubleDots(t)
  {
    assert ([c] + t)[1..] == t;
  }

  /** A pair of dots becomes one, and a lone dot is kept. */
  lemma ReplaceAfterDot(s: string)
    ensures ReplaceDoubleDots(".." + s) == "." + ReplaceDoubleDots(s)
    ensures s == [] || s[0] != '.' ==> ReplaceDoubleDots("." + s) == "." + ReplaceDoubleDots(s)
  {
    assert (".." + s)[2..] == s;
    assert ("." + s)[1..] == s;
  }

  /** The pass is not a full collapse: four dots leave two behind. */
  lemma ReplaceIsSinglePass()
    ensures ReplaceDoubleDots("....") == ".."
    ensures ReplaceDoubleDots("1....2") == "1..2"
  {
    assert "...."[2..] == "..";
    assert ".."[2..] == "";
    assert "1....2"[1..] == "....2";
    assert "....2"[2..] == "..2";
    assert "..2"[2..] == "2";
  }

  /** Python's `s.endswith(suffix)`. */
  predicate EndsWith(s: string, suffix: string) {
    |suffix| <= |s| && s[|s| - |suffix|..] == suffix
  }

  /** Python's `sub in s` on strings. */
  predicate IsSubstring(sub: string, s: string) {
    exists i :: 0 <= i <= |s| - |sub| && OccursAt(sub, s, i)
  }

  predicate OccursAt(sub: string, s: string, i: int) {
    0 <= i <= |s| - |sub| && s[i..i + |sub|] == sub
  }
}

=== FILE: values.dfy ===
/** The structured values a `package.yaml` manifest holds. */
module Values {

  /** A YAML value as the installer reads and writes it: strings, integers,
      lists and string-keyed maps. */
  datatype Value =
    | Str(s: string)
    | Int(n: int)
    | List(items: seq<Value>)
    | Map(entries: map<string, Value>)

  /** A list of strings as a YAML list. */
  function Strs(ss: seq<string>): (r: seq<Value>)
    ensures |r| == |ss|
    ensures forall i :: 0 <= i < |ss| ==> r[i] == Str(ss[i])
  {
    if ss == [] then [] else [Str(ss[0])] + Strs(ss[1..])
  }

  /** Distinct string lists give distinct YAML lists. */
  lemma StrsInjective(a: seq<string>, b: seq<string>)
    requires Strs(a) == Strs(b)
    ensures a == b
  {
    assert |a| == |b|;
    forall i | 0 <= i < |a| ensures a[i] == b[i] {
      assert Strs(a)[i] == Strs(b)[i];
    }
  }

  /** A string-to-string map as a YAML mapping. */
  function StrMap(m: map<string, string>): (r: map<string, Value>)
    ensures r.Keys == m.Keys
    ensures forall k :: k in m ==> r[k] == Str(m[k])
  {
    map k | k in m :: Str(m[k])
  }

  /** Number of occurrences of `v` in `xs`. */
  function Count(xs: seq<Value>, v: Value): nat {
    if xs == [] then 0 else (if xs[0] == v then 1 else 0) + Count(xs[1..], v)
  }

  lemma {:induction false} CountAppend(xs: seq<Value>, ys: seq<Value>, v: Value)
    ensures Count(xs + ys, v) == Count(xs, v) + Count(ys, v)
    decreases |xs|
  {
    if xs == [] {
      assert xs + ys == ys;
    } else {
      assert (xs + ys)[1..] == xs[1..] + ys;
      CountAppend(xs[1..], ys, v);
    }
  }

  lemma {:induction false} CountPositive(xs: seq<Value>, v: Value)
    ensures Count(xs, v) > 0 <==> v in xs
    decreases |xs|
  {
    if xs != [] {
      CountPositive(xs[1..], v);
      assert v in xs <==> xs[0] == v || v in xs[1..];
    }
  }
}

=== FILE: version.dfy ===
/** The version encoder: Rez versions are purely numeric, so every letter and
    underscore of an egg version becomes a numeric segment of its own. */
module Version {
  import opened Text

  /** The characters that receive a numeric code, in code order. */
  const Alphabet: string :=
    seq(26, i requires 0 <= i < 26 => ('a' as int + i) as char)
    + seq(26, i requires 0 <= i < 26 => ('A' as int + i) as char)
    + "_"

  /** a-z -> 0-25, A-Z -> 26-51, `_` -> 52; -1 for a character copied as is. */
  function Code(c: char): int {
    if 'a' <= c <= 'z' then c as int - 'a' as int
    else if 'A' <= c <= 'Z' then c as int - 'A' as int + 26
    else if c == '_' then 26 + 26
    else -1
  }

  /** The code of a character is its position in `Alphabet`, and only the
      characters of `Alphabet` have one. */
  lemma CodeIsAlphabetPosition(c: char)
    ensures |Alphabet| == 53
    ensures Code(c) >= 0 <==> c in Alphabet
    ensures Code(c) >= 0 ==> Code(c) < 53 && Alphabet[Code(c)] == c
  {
    if c in Alphabet {
      var i :| 0 <= i < |Alphabet| && Alphabet[i] == c;
      if i < 26 {
        assert Alphabet[i] == ('a' as int + i) as char;
      } else if i < 52 {
        assert Alphabet[i] == ('A' as int + i - 26) as char;
      } else {
        assert Alphabet[i] == '_';
      }
    }
    if Code(c) >= 0 {
      var n := Code(c);
      if n < 26 {
        assert Alphabet[n] == ('a' as int + n) as char;
      } else if n < 52 {
        assert Alphabet[n] == ('A' as int + n - 26) as char;
      } else {
        assert Alphabet[n] == '_';
      }
    }
  }

  predicate IsDigit(c: char) {
    '0' <= c <= '9'
  }

  function DigitChar(d: nat): char
    requires d < 10
  {
    ('0' as int + d) as char
  }

  /** The number a string of decimal digits denotes. */
  function DecimalValue(s: string): nat
    requires forall i :: 0 <= i < |s| ==> IsDigit(s[i])
  {
    if s == [] then 0
    else
      assert IsDigit(s[|s| - 1]);
      DecimalValue(s[..|s| - 1]) * 10 + (s[|s| - 1] as int - '0' as int)
  }

  /** Python's `"%d" % n` for a non-negative `n`. */
  function DecimalString(n: nat): (r: string)
    ensures |r| >= 1
    ensures forall i :: 0 <= i < |r| ==> IsDigit(r[i])
    ensures DecimalValue(r) == n
    ensures n > 0 ==> r[0] != '0'
    ensures |r| == 1 || r[0] != '0'
  {
    if n < 10 then [DigitChar(n)]
    else
      var r := DecimalString(n / 10) + [DigitChar(n % 10)];
      assert r[..|r| - 1] == DecimalString(n / 10);
      r
  }

  /** What one character of the egg version contributes: `.<code>.` or itself. */
  function Piece(c: char): string {
    if Code(c) >= 0 then "." + DecimalString(Code(c)) + "." else [c]
  }

  /** The version with every piece substituted, before any dot clean-up. */
  function Expand(s: string): string {
    if s == [] then "" else Piece(s[0]) + Expand(s[1..])
  }

  /** The substitution leaves no letter and no underscore behind. */
  lemma {:induction false} ExpandIsCodeless(s: string)
    ensures forall i :: 0 <= i < |Expand(s)| ==> Code(Expand(s)[i]) < 0
    decreases |s|
  {
    if s != [] {
      ExpandIsCodeless(s[1..]);
      var p := Piece(s[0]);
      assert forall i :: 0 <= i < |p| ==> Code(p[i]) < 0 by {
        if Code(s[0]) >= 0 {
          var d := DecimalString(Code(s[0]));
          assert forall i :: 0 <= i < |p| ==> p[i] == '.' || p[i] in d;
        }
      }
    }
  }

  /** `_convert_version`: substitute, do one `..`-to-`.` pass, strip edge dots. */
  function ConvertVersion(txt: string): string {
    Strip(ReplaceDoubleDots(Expand(txt)), Dots)
  }

  /** The encoded version is free of letters and underscores, never begins or
      ends with a dot, and keeps every non-dot character of the substitution,
      in order. */
  lemma ConvertVersionShape(txt: string)
    ensures var r := ConvertVersion(txt);
            && (r == [] || (r[0] != '.' && r[|r| - 1] != '.'))
            && (forall i :: 0 <= i < |r| ==> Code(r[i]) < 0)
            && NonDots(r) == NonDots(Expand(txt))
  {
    ConvertIsCodeless(txt);
    ConvertKeepsNonDots(txt);
    StripRemovesEdges(ReplaceDoubleDots(Expand(txt)), Dots);
  }

  lemma ConvertIsCodeless(txt: string)
    ensures forall i :: 0 <= i < |ConvertVersion(txt)| ==> Code(ConvertVersion(txt)[i]) < 0
  {
    var e := Expand(txt);
    var once := ReplaceDoubleDots(e);
    ExpandIsCodeless(txt);
    ReplaceShrinks(e);
    CodelessFrom(once, e);
    StripRemovesEdges(once, Dots);
    CodelessFrom(Strip(once, Dots), once);
  }

  lemma ConvertKeepsNonDots(txt: string)
    ensures NonDots(ConvertVersion(txt)) == NonDots(Expand(txt))
  {
    var once := ReplaceDoubleDots(Expand(txt));
    ReplaceKeepsNonDots(Expand(txt));
    StripDotsKeepsNonDots(once);
  }

  /** A string made of characters of a letter-free string is letter-free. */
  lemma CodelessFrom(r: string, s: string)
    requires forall i :: 0 <= i < |r| ==> r[i] in s
    requires forall i :: 0 <= i < |s| ==> Code(s[i]) < 0
    ensures forall i :: 0 <= i < |r| ==> Code(r[i]) < 0
  {
    forall i | 0 <= i < |r| ensures Code(r[i]) < 0 {
      var j :| 0 <= j < |s| && s[j] == r[i];
    }
  }

  /** Characters without a code pass through the substitution untouched. */
  lemma {:induction false} ExpandWithoutLetters(s: string)
    requires forall i :: 0 <= i < |s| ==> Code(s[i]) < 0
    ensures Expand(s) == s
    decreases |s|
  {
    if s != [] {
      ExpandWithoutLetters(s[1..]);
      assert [s[0]] + s[1..] == s;
    }
  }

  /** A version with no letter, no underscore, no `..` and no edge dot is
      already a Rez version and comes back unchanged (e.g. "1.2.3"). */
  lemma ConvertKeepsNumericVersion(txt: string)
    requires forall i :: 0 <= i < |txt| ==> Code(txt[i]) < 0
    requires NoDoubleDot(txt)
    requires txt == [] || (txt[0] != '.' && txt[|txt| - 1] != '.')
    ensures ConvertVersion(txt) == txt
  {
    ExpandWithoutLetters(txt);
    ReplaceWithoutPairs(txt);
    StripKeepsClean(txt, Dots);
  }

  /** Re-encoding an encoded version is a no-op exactly when the single pass
      left no `..` behind. */
  lemma ConvertTwiceWhenClean(txt: string)
    ensures ConvertVersion(ConvertVersion(txt)) == ConvertVersion(txt) <==> NoDoubleDot(ConvertVersion(txt))
  {
    var r := ConvertVersion(txt);
    ConvertVersionShape(txt);
    if NoDoubleDot(r) {
      ConvertKeepsNumericVersion(r);
    } else {
      ExpandWithoutLetters(r);
      ReplaceShrinksStrictly(r);
      StripRemovesEdges(ReplaceDoubleDots(r), Dots);
    }
  }

  /** True when every character of `s` has a code: letters and underscores. */
  predicate AllCoded(s: string) {
    forall i :: 0 <= i < |s| ==> Code(s[i]) >= 0
  }

  /** The decimal codes of a string of letters and underscores. */
  function Codes(s: string): (ds: seq<string>)
    requires AllCoded(s)
    ensures |ds| == |s|
    ensures forall i :: 0 <= i < |s| ==> ds[i] == DecimalString(Code(s[i]))
  {
    if s == [] then [] else [DecimalString(Code(s[0]))] + Codes(s[1..])
  }

  /** Python's `".".join(ds)`. */
  function JoinDots(ds: seq<string>): string {
    if |ds| == 0 then ""
    else if |ds| == 1 then ds[0]
    else ds[0] + "." + JoinDots(ds[1..])
  }

  /** A string of digits has no dot. */
  lemma DigitsHaveNoDot(d: string)
    requires forall i :: 0 <= i < |d| ==> IsDigit(d[i])
    ensures forall i :: 0 <= i < |d| ==> d[i] != '.'
  {
  }

  /** Joined non-empty digit strings start and end with a digit. */
  lemma {:induction false} JoinDotsEnds(ds: seq<string>)
    requires |ds| > 0
    requires forall k :: 0 <= k < |ds| ==> |ds[k]| >= 1 && forall i :: 0 <= i < |ds[k]| ==> IsDigit(ds[k][i])
    ensures |JoinDots(ds)| >= 1 && IsDigit(JoinDots(ds)[0]) && IsDigit(JoinDots(ds)[|JoinDots(ds)| - 1])
    decreases |ds|
  {
    if |ds| > 1 {
      JoinDotsEnds(ds[1..]);
      var j := JoinDots(ds[1..]);
      assert JoinDots(ds) == ds[0] + "." + j;
      assert JoinDots(ds)[|JoinDots(ds)| - 1] == j[|j| - 1];
    }
  }

  /** Each string of `ds` between a pair of dots: `".d0..d1.….dn."`. */
  function Dotted(ds: seq<string>): string {
    if ds == [] then "" else "." + ds[0] + "." + Dotted(ds[1..])
  }

  /** The substitution of a letter-only string is its codes, each between
      a pair of dots. */
  lemma {:induction false} ExpandLetters(s: string)
    requires AllCoded(s)
    ensures Expand(s) == Dotted(Codes(s))
    decreases |s|
  {
    if s != [] {
      ExpandLetters(s[1..]);
      assert Codes(s)[1..] == Codes(s[1..]);
    }
  }

  /** Non-empty, dot-free pieces. */
  predicate Pieces(ds: seq<string>) {
    forall k :: 0 <= k < |ds| ==> |ds[k]| >= 1 && forall i :: 0 <= i < |ds[k]| ==> ds[k][i] != '.'
  }

  /** The dot pass merges each pair of adjacent dots of `Dotted(ds)`. */
  lemma {:induction false} ReplaceDotted(ds: seq<string>)
    requires |ds| > 0 && Pieces(ds)
    ensures ReplaceDoubleDots(Dotted(ds)) == "." + JoinDots(ds) + "."
    decreases |ds|
  {
    var d := ds[0];
    if |ds| == 1 {
      assert Dotted(ds) == "." + d + "." by {
        assert Dotted(ds[1..]) == "";
      }
      ReplaceOnePiece(d);
    } else {
      var tail := ds[1..];
      var y := tail[0] + "." + Dotted(tail[1..]);
      assert Dotted(tail) == "." + y;
      ReplaceDotted(tail);
      var j := JoinDots(tail);
      ReplaceBehindDot(y, j);
      ReplaceTwoPieces(d, y, j);
      assert Dotted(ds) == "." + d + "." + ("." + y);
    }
  }

  lemma ReplaceOnePiece(d: string)
    requires |d| >= 1 && forall i :: 0 <= i < |d| ==> d[i] != '.'
    ensures ReplaceDoubleDots("." + d + ".") == "." + d + "."
  {
    assert "." + d + "." == "." + (d + ".");
    ReplaceAfterDot(d + ".");
    ReplaceAfterDotFree(d, ".");
    assert ReplaceDoubleDots(".") == ".";
  }

  /** One more piece in front: `.d.` followed by `.y` with `y` already known. */
  lemma ReplaceTwoPieces(d: string, y: string, j: string)
    requires |d| >= 1 && forall i :: 0 <= i < |d| ==> d[i] != '.'
    requires ReplaceDoubleDots(y) == j + "."
    ensures ReplaceDoubleDots("." + d + "." + ("." + y)) == "." + (d + "." + j) + "."
  {
    var x := d + (".." + y);
    RegroupFront(d, y);
    ReplaceAfterDot(x);
    ReplaceInner(d, y, j);
    RegroupBack(d, j);
  }

  lemma RegroupFront(d: string, y: string)
    ensures "." + d + "." + ("." + y) == "." + (d + (".." + y))
  {
  }

  lemma RegroupBack(d: string, j: string)
    ensures "." + (d + ("." + (j + "."))) == "." + (d + "." + j) + "."
  {
  }

  lemma ReplaceInner(d: string, y: string, j: string)
    requires forall i :: 0 <= i < |d| ==> d[i] != '.'
    requires ReplaceDoubleDots(y) == j + "."
    ensures ReplaceDoubleDots(d + (".." + y)) == d + ("." + (j + "."))
  {
    ReplaceAfterDotFree(d, ".." + y);
    ReplaceAfterDot(y);
  }

  /** What the pass does after a lone leading dot. */
  lemma ReplaceBehindDot(y: string, j: string)
    requires |y| >= 1 && y[0] != '.'
    requires ReplaceDoubleDots("." + y) == "." + j + "."
    ensures ReplaceDoubleDots(y) == j + "."
  {
    ReplaceAfterDot(y);
    var a := ReplaceDoubleDots(y);
    assert ("." + a)[1..] == a;
    assert ("." + j + ".")[1..] == j + ".";
  }

  /** A version made only of letters and underscores encodes to the decimal
      codes of its characters, joined by single dots. */
  lemma ConvertLettersOnly(s: string)
    requires |s| > 0 && AllCoded(s)
    ensures ConvertVersion(s) == JoinDots(Codes(s))
  {
    var cs := Codes(s);
    ExpandLetters(s);
    CodesArePieces(s);
    ReplaceDotted(cs);
    JoinDotsEnds(cs);
    StripDottedJoin(JoinDots(cs));
  }

  /** The codes of a letter-only string are non-empty digit strings. */
  lemma CodesArePieces(s: string)
    requires AllCoded(s)
    ensures Pieces(Codes(s))
    ensures forall k :: 0 <= k < |Codes(s)| ==> |Codes(s)[k]| >= 1 && forall i :: 0 <= i < |Codes(s)[k]| ==> IsDigit(Codes(s)[k][i])
  {
    forall k | 0 <= k < |s| {
      DigitsHaveNoDot(Codes(s)[k]);
    }
  }

  /** Stripping the dots around a string that starts and ends with a digit. */
  lemma StripDottedJoin(j: string)
    requires |j| >= 1 && IsDigit(j[0]) && IsDigit(j[|j| - 1])
    ensures Strip("." + j + ".", Dots) == j
  {
    var s := "." + j + ".";
    assert s[1] == j[0] && s[|s| - 2] == j[|j| - 1];
    assert s[1..|s| - 1] == j;
    StripExample(s, j);
  }

  /** Worked examples of the encoding: lower-case letters, capitals and the
      underscore. */
  lemma ConvertLowerExample()
    ensures ConvertVersion("abc") == "0.1.2"
  {
    CodesLowerExample();
    JoinLowerExample();
    ConvertLettersOnly("abc");
  }

  lemma JoinLowerExample()
    ensures JoinDots(["0", "1", "2"]) == "0.1.2"
  {
    JoinDotsThree("0", "1", "2");
    assert "0" + "." + "1" + "." + "2" == "0.1.2";
  }

  lemma CodesLowerExample()
    ensures Codes("abc") == ["0", "1", "2"]
  {
    assert DecimalString(0) == "0" && DecimalString(1) == "1" && DecimalString(2) == "2";
  }

  lemma ConvertUpperExample()
    ensures ConvertVersion("A_b") == "26.52.1"
  {
    CodesUpperExample();
    JoinUpperExample();
    ConvertLettersOnly("A_b");
  }

  lemma JoinUpperExample()
    ensures JoinDots(["26", "52", "1"]) == "26.52.1"
  {
    JoinDotsThree("26", "52", "1");
    assert "26" + "." + "52" + "." + "1" == "26.52.1";
  }

  lemma CodesUpperExample()
    ensures Codes("A_b") == ["26", "52", "1"]
  {
    assert DecimalString(26) == "26" && DecimalString(52) == "52" && DecimalString(1) == "1";
  }

  lemma JoinDotsThree(a: string, b: string, c: string)
    ensures JoinDots([a, b, c]) == a + "." + b + "." + c
  {
    assert [a, b, c][1..] == [b, c];
    assert [b, c][1..] == [c];
    assert JoinDots([c]) == c;
    assert JoinDots([b, c]) == b + "." + c;
    assert a + "." + (b + "." + c) == a + "." + b + "." + c;
  }

  /** Stripping one dot from each end of a string without other edge dots. */
  lemma StripExample(s: string, r: string)
    requires |s| >= 3 && s[0] == '.' && s[|s| - 1] == '.'
    requires s[1] != '.' && s[|s| - 2] != '.'
    requires r == s[1..|s| - 1]
    ensures Strip(s, Dots) == r
  {
    assert LeadingCount(s[1..], Dots) == 0;
    assert LeadingCount(s, Dots) == 1;
    var t := s[1..];
    assert t[..|t| - 1] == r;
    assert TrailingCount(t[..|t| - 1], Dots) == 0;
    assert TrailingCount(t, Dots) == 1;
  }

  /** Worked examples of the encoding: a pre-release tag, plain numbers, and
      the empty version. */
  lemma ConvertMixedExample()
    ensures ConvertVersion("1.0a2") == "1.0.0.2"
  {
    ExpandMixedExample();
    ReplaceMixedExample();
    StripRemovesEdges("1.0.0.2", Dots);
  }

  lemma ConvertNumericExample()
    ensures ConvertVersion("1.2.3") == "1.2.3"
    ensures ConvertVersion("") == ""
  {
    ConvertKeepsNumericVersion("1.2.3");
    ConvertKeepsNumericVersion("");
  }

  lemma ExpandMixedExample()
    ensures Expand("1.0a2") == "1.0.0.2"
  {
    assert "1.0a2"[1..] == ".0a2" && ".0a2"[1..] == "0a2";
    assert "0a2"[1..] == "a2" && "a2"[1..] == "2" && "2"[1..] == "";
  }

  lemma ReplaceMixedExample()
    ensures ReplaceDoubleDots("1.0.0.2") == "1.0.0.2"
  {
    assert "1.0.0.2"[1..] == ".0.0.2" && ".0.0.2"[1..] == "0.0.2";
    assert "0.0.2"[1..] == ".0.2" && ".0.2"[1..] == "0.2";
    assert "0.2"[1..] == ".2" && ".2"[1..] == "2";
  }

  /** Encoding is not idempotent: "1....2" encodes to "1..2", which encodes to "1.2". */
  lemma ConvertIsNotIdempotent()
    ensures ConvertVersion("1....2") == "1..2"
    ensures ConvertVersion("1..2") == "1.2"
  {
    ConvertFourDots();
    ConvertTwoDots();
  }

  lemma ConvertFourDots()
    ensures ConvertVersion("1....2") == "1..2"
  {
    ExpandWithoutLetters("1....2");
    ReplaceIsSinglePass();
    StripKeepsClean("1..2", Dots);
  }

  lemma ConvertTwoDots()
    ensures ConvertVersion("1..2") == "1.2"
  {
    ExpandWithoutLetters("1..2");
    assert ReplaceDoubleDots("1..2") == "1.2" by {
      assert "1..2"[1..] == "..2";
      assert "..2"[2..] == "2";
    }
    StripKeepsClean("1.2", Dots);
  }
}
